=== FILE: README.md ===
# OKX news scraper, modelled in Dafny

The OKX news scraper downloads the announcements of the OKX help centre that
were published within a date window. It starts at the announcements
category, follows the listing's "next" links page by page, and reads each
article's date label. It keeps the articles inside the window, fetching
their detail pages for the content. It stops once the least date seen so far
is no longer after the window's start. The records are written as a JSON
array to `okx_news_<start>_<end>.json` in the output folder.

The repository holds two versions of the scraper:

- `okx_news_scraper/scraper.py`, the one `main.py` imports, writes the
  records in batches of 100 while crawling. It decides the next URL only
  when a page lowered the running minimum.
- `okx-news-scraper/scraper.py` collects everything first and writes the
  file once. It decides the next URL after every page.

This project models both crawl loops, the page scraping both share, the
batch writer, the date handling of `utils.py` and the command-line check
of `main.py`. HTML, HTTP and the file system are replaced by data:

- a listing page is a list of items, each holding what the CSS selectors
  find and the outcome of fetching its detail page;
- the network is a finite map from URL to listing page;
- the output folder is a map from path to the JSON array a file holds.

Modules, one file each:

- `Wrappers` (wrappers.dfy): `Option` and `Result`. A `Result` stands for a
  call that returns or raises.
- `Text` (text.dfy): `strip`, `replace`, digit strings, splitting at a
  separator, ASCII lower case.
- `Dates` (dates.dfy): calendar dates from year 1 to 9999, their order, and
  the running minimum.
- `DateText` (date_text.dfy): the `strftime` forms `%Y-%m-%d`, `%Y%m%d` and
  the listing's label. It also holds `strptime` for `%Y-%m-%d` and
  `%b %d, %Y`, modelled as the regular expressions the standard library
  compiles for these directives, and `validate_date_format`.
- `Listing` (listing.dfy): `get_next_page_url` and `scrape_page_articles`,
  with a reference definition of what a page yields.
- `BatchWriter` (batch_writer.dfy): `write_batch_to_file` and the
  `current_batch` buffer.
- `Crawl` (crawl.dfy): the `while current_url:` loop in both versions, as a
  step function over an explicit state. It is run for a bounded number of
  iterations (`fuel`).
- `Download` (download.dfy): both `download_okx_news` functions, the output
  path and what the folder holds afterwards.
- `Cli` (cli.dfy): `main` of `okx-news-scraper/main.py`.
- `Scenario` (scenario.dfy): a three-page listing on which the flat loop
  ends and the nested loop never does, and a two-page listing whose second
  page reaches a date before the window, so both loops stop there. Both are
  instantiated with the window of 1 to 30 October 2020, the window of the
  module-level call in `okx_news_scraper/scraper.py`.

Where the code of the two versions differs, the model follows each version's
code. The nested decision of `okx_news_scraper/scraper.py` is recorded under
"## Findings". `Cli.Main` takes the loop as a parameter: `Main(Nested, ..)`
is `main.py` as written, which imports the nested version, and
`Main(Flat, ..)` is the corrected program.

The batched version is not idempotent. A second run over an unchanged
listing appends every record again to the existing file
(`Download.DownloadBatchedRerunAppends`). The write-once version is
idempotent (`Download.DownloadOnceIdempotent`).

## Model

| member | source | states |
|---|---|---|
| Text.Strip | okx_news_scraper/scraper.py:36 | `str.strip()`: the result has no white space at either end, and a text with none at either end is returned unchanged |
| Text.StripRemovesOuterSpace | okx_news_scraper/scraper.py:36 | the stripped text is a slice of the input outside which there is only white space, and it has none at either end; so exactly the outer white space is removed |
| Text.StripIgnoresOuterSpace | okx_news_scraper/scraper.py:36 | white space added at either end of a text is removed by `strip` along with the text's own, leaving what the bare text strips to |
| Text.ReplaceAll | okx_news_scraper/scraper.py:36 | `replace('Published on ', '')`: a text in which the prefix does not occur is returned unchanged |
| Dates.BeforeIsStrictTotalOrder | okx_news_scraper/scraper.py:39 | the `<` on midnight `datetime` values is irreflexive, transitive and total |
| Dates.BeforeIsKeyOrder | okx_news_scraper/scraper.py:82 | date order is the numeric order of the `YYYYMMDD` digits, so file names sort chronologically |
| Dates.Earlier | okx_news_scraper/scraper.py:39-40 | the running-minimum update keeps one of the two dates, the one not after the other |
| Dates.MinOf | okx_news_scraper/scraper.py:105-106 | the earlier of two optional dates is absent only when both are, is one of them, and is not after either |
| Dates.EarlierIsMinOf | okx_news_scraper/scraper.py:39-40 | the per-item update is the minimum with the item's date |
| Dates.MinOfAssociatesAndCommutes | okx_news_scraper/scraper.py:33-40 | the minimum does not depend on grouping or order, so the page minimum folded left to right equals the one folded from the right |
| DateText.FormatIso | okx_news_scraper/scraper.py:57 | `strftime('%Y-%m-%d')` gives ten characters: four digits, hyphen, two digits, hyphen, two digits |
| DateText.FormatBasic | okx_news_scraper/scraper.py:82 | `strftime('%Y%m%d')` gives eight digits whose value is the date's `YYYYMMDD` number |
| DateText.FormatBasicDropsHyphens | okx_news_scraper/scraper.py:82 | the file-name form is the record-date form without its hyphens |
| DateText.FormatBasicIsFaithful | okx_news_scraper/scraper.py:82 | distinct dates give distinct file-name forms, and their numeric order is the date order |
| DateText.ParseYearToken | okx-news-scraper/utils.py:15 | `%Y` (the regular expression `\d\d\d\d`) accepts exactly four digits, and reads them as their value; the label's year is read the same way (okx_news_scraper/scraper.py:37) |
| DateText.ParseMonthToken | okx-news-scraper/utils.py:15 | `%m` accepts only a month 1 to 12, written with digits whose value it is |
| DateText.ParseDayToken | okx-news-scraper/utils.py:15 | `%d` accepts only a day 1 to 31, and a digits-only token has its digits' value |
| DateText.MonthOfAbbreviation | okx_news_scraper/scraper.py:37 | `%b` accepts exactly the twelve English abbreviations in any case, and reads each as its month |
| DateText.MakeDate | okx_news_scraper/scraper.py:37 | `datetime(y, m, d)` succeeds exactly for a date that exists |
| DateText.ParseIso | okx-news-scraper/utils.py:15 | a string that `strptime('%Y-%m-%d')` accepts has 8 to 10 characters and a hyphen after four year digits; the year is those digits' value, and the tokens around the next hyphen are read by `%m` and `%d` as the date's month and day |
| DateText.ParseMonthTokenOfDayText | okx-news-scraper/utils.py:15 | `%m` also reads a month 1 to 12 written without its leading zero |
| DateText.ParseIsoOfUnpadded | okx-news-scraper/utils.py:15 | a date with month and day written without zero padding, such as `2020-1-5`, is accepted as that date |
| DateText.ParseIsoComplete | okx-news-scraper/utils.py:15 | the converse of `ParseIso`'s contract: four year digits, a hyphen, and month and day tokens that `%m` and `%d` read as a date's month and day are accepted as that date, whatever padding the tokens use |
| DateText.MixedPaddingExample | okx-news-scraper/utils.py:15 | `2020-01-5` is accepted as 5 January 2020 |
| DateText.SpacePaddedDayExample | okx-news-scraper/utils.py:15 | `2020-10- 5`, with the day padded by a space, is accepted as 5 October 2020 |
| DateText.ValidateDateFormat | okx-news-scraper/utils.py:12-17 | returns the parsed date exactly when `strptime` accepts the text; otherwise raises a message that quotes the text and ends in `Use YYYY-MM-DD.` |
| DateText.ParseIsoOfFormatIso | okx-news-scraper/utils.py:15 | every printed record date parses back to the same date |
| DateText.FormatIsoOfParseIso | okx-news-scraper/utils.py:15 | a zero-padded date text that parses prints back to the same text |
| DateText.ParseIsoRejectsNonDates | okx-news-scraper/utils.py:14-17 | a month outside 1..12, a day the month lacks (29 February outside leap years) or year 0 is refused |
| DateText.ParseIsoRejectsTrailing | okx-news-scraper/utils.py:14-17 | text after a complete date is refused |
| DateText.ValidDateExample | okx-news-scraper/utils.py:12-17 | `2020-10-01` is accepted as 1 October 2020 |
| DateText.OutOfRangeDateExample | okx-news-scraper/utils.py:12-17 | `2020-13-40` is refused |
| DateText.NonDateExample | okx-news-scraper/utils.py:12-17 | `not-a-date` is refused with the message that quotes it |
| DateText.MonthOfAbbreviationOfAbbreviation | okx_news_scraper/scraper.py:37 | every abbreviation as the listing prints it reads back as its own month |
| DateText.CleanedLabel | okx_news_scraper/scraper.py:36 | stripping a printed label and removing `Published on ` leaves exactly month, day, comma and year |
| DateText.ParseMonDayYearOfBody | okx_news_scraper/scraper.py:37 | `strptime('%b %d, %Y')` reads that text back as the date it was printed from |
| DateText.ParseMonDayYear | okx_news_scraper/scraper.py:37 | `strptime('%b %d, %Y')` accepts only a text starting with the abbreviation of the date's month and a space |
| DateText.ParseMonDayYearReadsFields | okx_news_scraper/scraper.py:37 | in an accepted text, the tokens around the first comma after the month are read by `%d` and `%Y` as the date's day and year |
| DateText.ParseLabel | okx_news_scraper/scraper.py:36-37 | a label without outer white space and without the `Published on ` prefix is parsed as it stands |
| DateText.ParseLabelOfFormatLabel | okx_news_scraper/scraper.py:36-37 | a date label the listing prints reads back as its own date |
| DateText.ParseLabelIgnoresOuterSpace | okx_news_scraper/scraper.py:36-37 | because of `.strip()`, any label with white space around it is read exactly as the bare label is |
| DateText.ParseLabelOfPaddedLabel | okx_news_scraper/scraper.py:36-37 | a printed label surrounded by any white space reads back as its own date |
| Listing.NextPageUrl | okx_news_scraper/scraper.py:21-27 | there is a next URL exactly when the next anchor exists with an `href`, and it is the site origin followed by that `href` |
| Listing.ItemDate | okx_news_scraper/scraper.py:36-37 | an item's date is read exactly when the date span exists and its label parses, and it is the parsed date |
| Listing.ItemRecord | okx_news_scraper/scraper.py:43-62 | an in-window item raises unless it has a title and a link; it yields a record exactly when its detail page gave content; the record holds the ISO date, stripped title, absolute link and content |
| Listing.ScrapePage | okx_news_scraper/scraper.py:29-64 | scraping raises exactly when some item is unreadable; otherwise it returns the page's harvest and its least date |
| Listing.ScrapeLoop | okx_news_scraper/scraper.py:33-40 | the loop's running minimum, once set, is never raised by the items that follow |
| Listing.ScrapeLoopMeaning | okx_news_scraper/scraper.py:35-62 | the loop with its two accumulators raises exactly on an unreadable page; otherwise it appends the harvest and folds in the page minimum |
| Listing.PageMinimumIsLeast | okx_news_scraper/scraper.py:33-40 | the page minimum is absent exactly for a page without items, is not after any item's date (out-of-window items included), and is some item's date |
| Listing.HarvestInWindow | okx_news_scraper/scraper.py:43-57 | every record's date string parses back, through `validate_date_format`'s parser, to a date inside the window |
| Listing.HarvestAtMostOnePerItem | okx_news_scraper/scraper.py:35-62 | a page yields at most one record per item |
| Listing.DetailFailureDropsItem | okx_news_scraper/scraper.py:48-53 | an in-window item whose detail page failed adds no record and raises nothing |
| Listing.OutOfWindowItemNeedsOnlyDate | okx_news_scraper/scraper.py:43-45 | title and link are read only inside the window: an out-of-window item without them changes neither readability nor the harvest |
| BatchWriter.Flush | okx_news_scraper/scraper.py:127-142 | a missing file is created with the batch; an existing array is rewritten as itself followed by the batch |
| BatchWriter.Append | okx_news_scraper/scraper.py:122-123 | writing no records leaves the file alone; writing some leaves the old array followed by them |
| BatchWriter.AppendTwice | okx_news_scraper/scraper.py:127-139 | two appends in a row equal one append of both, so flush boundaries leave no trace |
| BatchWriter.FlushAllIsAppend | okx_news_scraper/scraper.py:117-123 | flushing non-empty batches in order leaves the old array followed by all their records in order |
| BatchWriter.BatchBoundariesIrrelevant | okx_news_scraper/scraper.py:117-123 | two ways of cutting the same records into non-empty batches write the same file |
| BatchWriter.Absorb | okx_news_scraper/scraper.py:103-119 | after a page the buffer is below 100 records and nothing is lost or reordered; the file is written exactly when the buffer and the page's records reach 100, and then it gains both and the buffer is emptied |
| BatchWriter.AbsorbTracks | okx_news_scraper/scraper.py:103-119 | the file holds the starting array and a prefix of the records found, and the buffer holds the rest; absorbing a page keeps this true |
| BatchWriter.TrackedFileIsPrefix | okx_news_scraper/scraper.py:112-119 | at any moment the file is the starting array followed by a prefix of the records found, and it exists if it existed before |
| BatchWriter.FinishOfTracks | okx_news_scraper/scraper.py:121-123 | after the final write the file is the starting array followed by every record found |
| Crawl.Read | okx_news_scraper/scraper.py:101-102 | reading a listing page raises exactly when scraping it does; otherwise it gives the harvest, the page minimum and the next URL |
| Crawl.RepliesOf | okx_news_scraper/scraper.py:95-102 | the replies cover exactly the source's URLs, each being that page read in the window |
| Crawl.AfterPage | okx_news_scraper/scraper.py:103-111 | records are appended and the minimum absorbs the page minimum. After any page of the flat loop, and after a page that lowered the minimum in the nested loop, the URL is the page's next URL if the new minimum is after `start`, and none otherwise. The nested loop keeps its URL when the minimum was not lowered |
| Crawl.LoweredMovesOn | okx_news_scraper/scraper.py:105-111 | after a page that lowers the minimum, both loops take the new minimum, append the records and move to the next URL or stop |
| Crawl.FlatMovesOn | okx-news-scraper/scraper.py:80-86 | after a page that does not lower a minimum still after `start`, the flat loop keeps the minimum and moves to the page's next URL |
| Crawl.Run | okx-news-scraper/scraper.py:71-86 | a run ends only with no URL left, and one that starts with none ends at once without fetching; an exception is the one the current URL's iteration raises; running out of fuel leaves a URL still to fetch |
| Crawl.Step | okx_news_scraper/scraper.py:93-111 | an iteration raises exactly when the URL has no status-200 page or its page is unreadable, with that exception; otherwise it moves on as `AfterPage` says |
| Crawl.StepOnSource | okx-news-scraper/scraper.py:71-86 | on a source, an iteration raises `ListingUnavailable` for a missing page and succeeds exactly on a readable page, moving on with its harvest, minimum and next URL |
| Crawl.NoFetchOnceStartReached | okx-news-scraper/scraper.py:83-86 | no listing page is fetched once the running minimum is at or before `start`, and every run ends in that settled state |
| Crawl.EarliestNeverRises | okx-news-scraper/scraper.py:80-81 | the running minimum never rises over a run |
| Crawl.RepliesOfWithin | okx_news_scraper/scraper.py:43-57 | every reply of a source holds only records dated inside the window |
| Crawl.RunRecordsInWindow | okx-news-scraper/scraper.py:71-86 | a run adds only records dated inside the window |
| Crawl.CrawlRecordsInWindow | okx-news-scraper/scraper.py:71-90 | a crawl from the root finds only records dated inside the window |
| Crawl.RunExtendsOutput | okx-news-scraper/scraper.py:78 | a run only appends: the records found before are a prefix of those found after |
| Crawl.ChainIsAcyclic | okx-news-scraper/scraper.py:83-84 | a finite chain of next links never revisits a URL |
| Crawl.FlatRunFollowsChain | okx-news-scraper/scraper.py:71-86 | positioned on a finite next-chain, the flat loop ends within as many iterations as the chain has URLs left, and its k-th fetch is the chain's URL k places on |
| Crawl.FlatRunFetchesChainOnce | okx-news-scraper/scraper.py:71-86 | on replies that follow a chain of distinct URLs from the root, the flat loop ends, its k-th fetch is the chain's k-th URL, and no URL is fetched twice |
| Crawl.FlatCrawlTerminates | okx-news-scraper/scraper.py:71-86 | over a finite next-chain from the root, the flat loop ends; it fetches the chain's URLs in order, the k-th fetch being the chain's k-th URL, so no URL is fetched twice |
| Crawl.NestedStepStalls | okx_news_scraper/scraper.py:105-111 | on a readable page that does not lower the minimum, the nested loop keeps its URL and minimum and appends the page's records again |
| Crawl.NestedRunNeverEnds | okx_news_scraper/scraper.py:93-111 | from such a page the nested loop never leaves: with any fuel it runs out on the same URL and minimum, having appended the page's records once per iteration |
| Crawl.RunBatched | okx_news_scraper/scraper.py:93-119 | the batched loop ends only with no URL left, raises only the current iteration's exception, and keeps the buffer below 100 records |
| Crawl.RunBatchedTracksRun | okx_news_scraper/scraper.py:93-123 | batching changes nothing about the crawl, and the writer always holds the starting array followed by the records found |
| Download.JoinPath | okx_news_scraper/scraper.py:82 | `os.path.join` appends the name directly to an empty folder or one ending in `/`, and otherwise inserts one `/` between them |
| Download.OutputName | okx_news_scraper/scraper.py:82 | the file name has 31 characters, starts with `okx_news_` and ends with `.json` |
| Download.OutputPath | okx_news_scraper/scraper.py:82 | the path starts with the folder and ends with the file name, with at most one separator between them |
| Download.OutputNameDecodes | okx_news_scraper/scraper.py:82 | the file name has 31 characters and carries both dates' `YYYYMMDD` forms at fixed places |
| Download.OutputPathInjective | okx_news_scraper/scraper.py:82 | within a folder, two windows share an output path exactly when they are the same window |
| Download.DownloadOnce | okx-news-scraper/scraper.py:62-92 | saves exactly when the flat crawl ends. The file then holds exactly the crawl's records, all dated inside the window, and every other file is untouched. A raising crawl leaves the folder as it was |
| Download.DownloadOnceIdempotent | okx-news-scraper/scraper.py:88-90 | a second run on the same listing returns the same path and folder |
| Download.DownloadOnceTerminates | okx-news-scraper/scraper.py:71-92 | on a finite next-chain from the root the download does not run forever |
| Download.DownloadBatched | okx_news_scraper/scraper.py:77-125 | saves, raises or runs on exactly as the crawl does, returns the output path, and touches no other file |
| Download.DownloadBatchedSaves | okx_news_scraper/scraper.py:121-125 | a finished batched download leaves the file's old array followed by every record found |
| Download.DownloadBatchedRaises | okx_news_scraper/scraper.py:112-114 | a raising batched download raises the crawl's exception and leaves the old array followed by a prefix of the records found (the flushed batches) |
| Download.DownloadBatchedRerunAppends | okx_news_scraper/scraper.py:127-139 | a second batched run over an unchanged listing appends every record again |
| Download.DownloadBatchedFlatTerminates | okx_news_scraper/scraper.py:93-125 | with the flat decision and a finite next-chain from the root, the batched download does not run forever |
| Download.BatchedMatchesOnceOnFreshFolder | okx_news_scraper/scraper.py:77-125 | with the flat decision and a crawl that finds at least one record, the batched download into a folder without the output file leaves the same folder as the write-once download (with no record the batched version writes no file, lines 122-123) |
| Cli.CheckArguments | okx-news-scraper/main.py:16-21 | the window is accepted exactly when both dates parse and the start is not after the end. A bad start is reported before a bad end, then a reversed window with its message |
| Cli.CheckArgumentsOfFormatted | okx-news-scraper/main.py:17-21 | any window written in `YYYY-MM-DD` form is accepted as given exactly when it does not run backwards |
| Cli.Main | okx-news-scraper/main.py:1-27 | with the crawl loop as a parameter (`Nested` for the imported version): a bad argument is reported with the folder untouched; otherwise the report and folder are those of the batched download, and `None` means the download runs on |
| Cli.MainRefusesReversedWindow | okx-news-scraper/main.py:20-21 | a reversed window is refused with its message and nothing is written, whichever loop runs |
| Cli.FlatMainEnds | okx-news-scraper/main.py:23 | corrected: with the flat decision, on a finite next-chain from the root, `main` always ends |
| Scenario.ReadPage1 | okx_news_scraper/scraper.py:29-64 | the first page of the example is read as the records of its two articles, minimum `b`, next page 2 |
| Scenario.FirstStep | okx_news_scraper/scraper.py:103-111 | on any replies that give page 1's reply, both loops move from the root to page 2 with minimum `b` |
| Scenario.FlatCrawlEnds | okx-news-scraper/scraper.py:71-86 | on the three-page listing the flat loop reads each page once and ends with all four records and minimum `c` |
| Scenario.StallsOnPage2 | okx_news_scraper/scraper.py:105-106 | page 2 does not lower the minimum left by page 1 |
| Scenario.NestedRunOfReplies | okx_news_scraper/scraper.py:93-111 | on that listing the nested loop runs out of any fuel, still on page 2, with one more record per iteration |
| Scenario.NestedCrawlNeverEnds | okx_news_scraper/scraper.py:93-111 | the nested crawl of the three-page listing never ends, whatever the fuel |
| Scenario.OctoberListing | okx_news_scraper/scraper.py:144 | for the window 1 to 30 October 2020, the flat loop ends after three pages and the nested loop never ends |
| Scenario.OctoberMain | okx-news-scraper/main.py:1-23 | `main` as written never returns on the October listing with its window, whatever the fuel; with the flat decision it saves to the output path after three pages |
| Scenario.ReadReachingPage2 | okx_news_scraper/scraper.py:29-64 | a page with one announcement inside the window and an older one before it yields only the first record, and its minimum is the older date |
| Scenario.ReachingCrawlEnds | okx-news-scraper/scraper.py:71-86 | when page 2 reaches a date before the window, both loops stop after two pages, with exactly the in-window records in listing order |
| Scenario.OctoberReaching | okx_news_scraper/scraper.py:93-111 | with 28 and 15 October on page 1 and 5 October and 20 September on page 2, both loops end after two pages with the records of 28, 15 and 5 October |

## Left out

- HTTP is replaced by data: the session and its retry policy, the timeout, the one-second sleep between listing requests and `RequestException`. A listing URL either maps to a page or answers with a status other than 200. A detail page is the outcome stored in its item.
- HTML parsing is left out: `BeautifulSoup`, the CSS class names, `get_text(separator='\n', strip=True)` and `str(content_div)`. An item holds what the selectors find, and a detail page's text and markup are opaque strings.
- JSON text is left out: `json.load`, `json.dump(..., indent=4)` and any malformed existing file. A file is the array of records it holds. The `'r+'` rewrite is modelled as leaving exactly the new array. This holds for a file this program wrote, because the new text is never shorter than the old; an existing file with a longer text, such as one written with other indentation, would keep trailing text after the new array.
- `os.path.exists`, `os.makedirs` and I/O errors while writing are left out. The folder is a map from path to array, and a write always succeeds.
- Logging is left out: `setup_logging`, `logging.error`, and the text of `Exception` messages other than the date-format and window-order messages.
- The module-level call at okx_news_scraper/scraper.py:144, which crawls as soon as the module is imported, is not modelled as a side effect. Its window is the one `Scenario.OctoberListing` uses.
- `argparse` is left out: the three arguments arrive as strings. `print` is left out: `main` returns a `Report`.
- `main.py` imports `okx_news_scraper.utils`, which is not part of this model. The `utils.py` of `okx-news-scraper` is modelled in its place.
- setup.py (packaging metadata) is not part of this model.
- Crawl.Run: the loop runs for at most `fuel` iterations, and `OutOfFuel` stands for a loop that would go on. Statements about termination are stated over a fuel bound.
- DateText.ParseMonDayYear: each white-space run of the format is read as exactly one space, where `strptime` accepts any run of white space (`\s+`).
- DateText.FormatIso: `%Y` is printed with four digits. Some C libraries print fewer for years below 1000. `%Y` reads `0999`, so a label such as `Oct 5, 0999` gives year 999. Such a year reaches a record only with a start date below year 1000, and a command-line date such as `0999-01-01` gives one directly.
- DateText.FormatBasic: the same four-digit `%Y`. A command-line year below 1000 would give a shorter file name on such libraries.
- DateText.ParseIso: `%Y`, `%m` and `%d` are read with ASCII digits only, where `strptime` accepts any Unicode decimal digit (`\d`).
- DateText.MonthOfAbbreviation: case folding is ASCII only. `strptime` also accepts some non-ASCII case variants.
- Text.ReplaceAll: its contract states only that a text without an occurrence is returned unchanged. The one replacement the scrapers make is stated for the labels the listing prints by `DateText.CleanedLabel`, and for such labels with white space around them by `DateText.ParseLabelOfPaddedLabel`; for other texts it is not stated.
- Text.IsSpace: white space is Python's `str.isspace()` for code points below 256 only.

## Findings

| source | as written | input that shows it | evidently intended | confidence | as-written member | corrected member |
|---|---|---|---|---|---|---|
| okx_news_scraper/scraper.py:105-111 | the next-URL decision is indented under the "minimum lowered" branch, so a page that does not lower the running minimum leaves `current_url` unchanged; the same page is fetched again forever, and its records are appended on every pass | a listing whose page 2 has the same least date as page 1, e.g. 28 and 15 October on page 1, 15 October on page 2, and 5 October on page 3, for the window 1 to 30 October 2020 | decide the next URL after every page, as okx-news-scraper/scraper.py:83-86 does | high; not executed | Crawl.NestedRunNeverEnds, Scenario.NestedCrawlNeverEnds, Scenario.OctoberMain | Crawl.FlatCrawlTerminates, Scenario.FlatCrawlEnds, Download.DownloadBatchedFlatTerminates, Cli.FlatMainEnds |

=== FILE: batch_writer.dfy ===
/** The batched output of the crawler in okx_news_scraper/scraper.py:
    `write_batch_to_file` and the `current_batch` buffer of `download_okx_news`.
    The file is reduced to the JSON array it holds, or its absence. */
module BatchWriter {
  import opened Wrappers
  import opened Listing

  /** The output file: absent, or holding an array of records. */
  type File = Option<seq<Record>>

  /** The records a file holds; an absent file holds none. */
  function Contents(f: File): seq<Record>
  {
    match f
    case None => []
    case Some(xs) => xs
  }

  /** `write_batch_to_file(batch, path)`: a missing file is created holding
      exactly `batch`; an existing one is rewritten as its old array followed
      by `batch`. Either way the file exists afterwards. */
  function Flush(f: File, batch: seq<Record>): (r: File)
    ensures r.Some?
    ensures Contents(r) == Contents(f) + batch
    ensures f.None? ==> r.value == batch
  {
    match f
    case None => Some(batch)
    case Some(xs) => Some(xs + batch)
  }

  /** Adding records to a file, writing nothing when there are none. */
  function Append(f: File, xs: seq<Record>): (r: File)
    ensures |xs| == 0 ==> r == f
    ensures |xs| > 0 ==> r == Some(Contents(f) + xs)
  {
    if |xs| == 0 then f else Flush(f, xs)
  }

  /** Appending in two steps is appending once: flush boundaries leave no trace. */
  lemma AppendTwice(f: File, a: seq<Record>, b: seq<Record>)
    ensures Append(Append(f, a), b) == Append(f, a + b)
  {
    if |a| > 0 && |b| > 0 {
      assert Contents(Append(f, a)) == Contents(f) + a;
      assert Contents(f) + a + b == Contents(f) + (a + b);
    } else if |a| == 0 {
      assert a + b == b;
    } else {
      assert a + b == a;
    }
  }

  function Concat(bs: seq<seq<Record>>): seq<Record>
  {
    if |bs| == 0 then [] else bs[0] + Concat(bs[1..])
  }

  /** Flushing the batches one after another, in order. */
  function FlushAll(f: File, bs: seq<seq<Record>>): File
    decreases |bs|
  {
    if |bs| == 0 then f else FlushAll(Flush(f, bs[0]), bs[1..])
  }

  /** Flushing non-empty batches in order leaves the old contents followed by
      every record, in order; with no batch the file is untouched. */
  lemma {:induction false} FlushAllIsAppend(f: File, bs: seq<seq<Record>>)
    requires forall i :: 0 <= i < |bs| ==> |bs[i]| > 0
    ensures FlushAll(f, bs) == Append(f, Concat(bs))
    decreases |bs|
  {
    if |bs| > 0 {
      FlushAllIsAppend(Flush(f, bs[0]), bs[1..]);
      AppendTwice(f, bs[0], Concat(bs[1..]));
    }
  }

  /** Two ways of cutting the same records into non-empty batches produce the same file. */
  lemma BatchBoundariesIrrelevant(f: File, bs1: seq<seq<Record>>, bs2: seq<seq<Record>>)
    requires forall i :: 0 <= i < |bs1| ==> |bs1[i]| > 0
    requires forall i :: 0 <= i < |bs2| ==> |bs2[i]| > 0
    requires Concat(bs1) == Concat(bs2)
    ensures FlushAll(f, bs1) == FlushAll(f, bs2)
  {
    FlushAllIsAppend(f, bs1);
    FlushAllIsAppend(f, bs2);
  }

  /** `BATCH_SIZE`. */
  const BatchSize: nat := 100

  /** The file and the records of `current_batch` not yet written. */
  datatype Writer = Writer(file: File, buffer: seq<Record>)

  /** What the file holds once the buffer is written: the final
      `if current_batch: write_batch_to_file(...)`. */
  function Finish(w: Writer): File
  {
    Append(w.file, w.buffer)
  }

  /** One page's records: `current_batch.extend(news_data)`, then a flush if
      the buffer has reached the threshold. The file is written exactly when
      the buffer together with the page's records reaches `BatchSize`, and
      then the buffer is emptied. A flushed batch can exceed the threshold,
      since the check runs once per page; the buffer left behind is always
      below it, and nothing is lost or reordered. */
  function Absorb(w: Writer, recs: seq<Record>): (r: Writer)
    ensures |r.buffer| < BatchSize
    ensures Finish(r) == Append(Finish(w), recs)
    ensures r.file != w.file <==> |w.buffer| + |recs| >= BatchSize
    ensures r.file != w.file ==> r.buffer == [] && Contents(r.file) == Contents(w.file) + w.buffer + recs
  {
    var b := w.buffer + recs;
    AppendTwice(w.file, w.buffer, recs);
    if |b| >= BatchSize then Writer(Flush(w.file, b), []) else Writer(w.file, b)
  }

  /** The writer of a run that started from `file0` and has discovered `out`:
      the file holds `file0` followed by a prefix of `out`, and the buffer
      holds the rest. */
  predicate Tracks(w: Writer, file0: File, out: seq<Record>)
  {
    |w.buffer| <= |out|
    && w.buffer == out[|out| - |w.buffer|..]
    && w.file == Append(file0, out[..|out| - |w.buffer|])
  }

  /** Absorbing a page's records keeps the writer in step with the run. */
  lemma AbsorbTracks(w: Writer, file0: File, out: seq<Record>, recs: seq<Record>)
    requires Tracks(w, file0, out)
    ensures Tracks(Absorb(w, recs), file0, out + recs)
  {
    var k := |out| - |w.buffer|;
    var b := w.buffer + recs;
    var out' := out + recs;
    assert out == out[..k] + w.buffer;
    assert out' == out[..k] + b;
    if |b| >= BatchSize {
      assert Absorb(w, recs) == Writer(Flush(w.file, b), []);
      assert Flush(w.file, b) == Append(w.file, b);
      AppendTwice(file0, out[..k], b);
      assert out'[..|out'|] == out';
    } else {
      assert Absorb(w, recs) == Writer(w.file, b);
      assert out'[..k] == out[..k];
      assert out'[k..] == b;
    }
  }

  /** What a tracked writer has written so far: the starting array followed
      by a prefix of the records discovered. */
  lemma TrackedFileIsPrefix(w: Writer, file0: File, out: seq<Record>)
    requires Tracks(w, file0, out)
    ensures w.file.None? ==> file0.None?
    ensures var c0 := Contents(file0); var c := Contents(w.file);
      |c0| <= |c| <= |c0| + |out| && c == c0 + out[..|c| - |c0|]
  {
    var k := |out| - |w.buffer|;
    var c0 := Contents(file0);
    if k > 0 {
      assert |Contents(w.file)| - |c0| == k;
    }
  }

  /** Once the buffer is written, the file is `file0` followed by every record
      discovered, whatever the batch boundaries were. */
  lemma FinishOfTracks(w: Writer, file0: File, out: seq<Record>)
    requires Tracks(w, file0, out)
    ensures Finish(w) == Append(file0, out)
  {
    var k := |out| - |w.buffer|;
    assert out == out[..k] + w.buffer;
    AppendTwice(file0, out[..k], w.buffer);
  }
}

=== FILE: cli.dfy ===
/** okx-news-scraper/main.py: the command-line entry point. The three
    positional arguments arrive as strings; what `main` prints is returned as
    a `Report`, and the download it starts is the batched one of
    okx_news_scraper/scraper.py, the module `main.py` imports. That module
    decides the next URL with the nested loop; `Main(Nested, ..)` is the
    program as written and `Main(Flat, ..)` the program with the flat
    decision of okx-news-scraper/scraper.py. */
module Cli {
  import opened Wrappers
  import opened Dates
  import opened DateText
  import opened Listing
  import opened Crawl
  import opened Download

  const OrderMessage: string := "Start date must be earlier than or equal to end date."

  /** The two dates are read in order with `validate_date_format`, the first
      bad one raising its message; then a start after the end is refused. */
  function CheckArguments(startText: string, endText: string): (r: Result<(CalendarDate, CalendarDate), string>)
    ensures r.Success? <==>
      ParseIso(startText).Some? && ParseIso(endText).Some? && NotAfter(ParseIso(startText).value, ParseIso(endText).value)
    ensures r.Success? ==> r.value == (ParseIso(startText).value, ParseIso(endText).value)
    ensures ParseIso(startText).None? ==> r == Failure(InvalidDateMessage(startText))
    ensures ParseIso(startText).Some? && ParseIso(endText).None? ==> r == Failure(InvalidDateMessage(endText))
    ensures ParseIso(startText).Some? && ParseIso(endText).Some? && Before(ParseIso(endText).value, ParseIso(startText).value) ==>
      r == Failure(OrderMessage)
  {
    var start :- ValidateDateFormat(startText);
    var end :- ValidateDateFormat(endText);
    if Before(end, start) then Failure(OrderMessage) else Success((start, end))
  }

  /** Any window written in `YYYY-MM-DD` form is accepted as given, provided
      it does not run backwards. */
  lemma CheckArgumentsOfFormatted(start: CalendarDate, end: CalendarDate)
    ensures CheckArguments(FormatIso(start), FormatIso(end)).Success? <==> NotAfter(start, end)
    ensures NotAfter(start, end) ==> CheckArguments(FormatIso(start), FormatIso(end)) == Success((start, end))
  {
    ParseIsoOfFormatIso(start);
    ParseIsoOfFormatIso(end);
  }

  /** What `main` prints: the saved path, or `Error: ` with the message of
      the exception it caught. */
  datatype Report = SavedTo(path: string) | ArgumentError(message: string) | CrawlFailed(error: CrawlError)

  /** `main()` on the arguments `startText endText folder`, with the crawl
      loop `v`. `None` stands for a crawl that has not ended within `fuel`
      iterations. A bad argument is reported before anything is fetched or
      written. Otherwise the report and the folder are those of the batched
      download over the window. */
  function Main(v: Variant, startText: string, endText: string, folder: string,
                src: ListingSource, fs: FileSystem, fuel: nat): (r: Option<(Report, FileSystem)>)
    ensures CheckArguments(startText, endText).Failure? ==>
      r == Some((ArgumentError(CheckArguments(startText, endText).error), fs))
    ensures CheckArguments(startText, endText).Success? ==>
      var (start, end) := CheckArguments(startText, endText).value;
      var d := DownloadBatched(v, src, start, end, folder, fs, fuel);
      && (r.None? <==> d.Diverged?)
      && (d.Saved? ==> r == Some((SavedTo(OutputPath(folder, start, end)), d.fs)))
      && (d.Raised? ==> r == Some((CrawlFailed(d.error), d.fs)))
  {
    match CheckArguments(startText, endText)
    case Failure(m) => Some((ArgumentError(m), fs))
    case Success((start, end)) =>
      match DownloadBatched(v, src, start, end, folder, fs, fuel)
      case Saved(path, fs') => Some((SavedTo(path), fs'))
      case Raised(e, fs') => Some((CrawlFailed(e), fs'))
      case Diverged => None
  }

  /** A window that runs backwards is refused with its message, and the
      folder is left as it was. */
  lemma MainRefusesReversedWindow(v: Variant, start: CalendarDate, end: CalendarDate, folder: string,
                                  src: ListingSource, fs: FileSystem, fuel: nat)
    requires Before(end, start)
    ensures Main(v, FormatIso(start), FormatIso(end), folder, src, fs, fuel) == Some((ArgumentError(OrderMessage), fs))
  {
    ParseIsoOfFormatIso(start);
    ParseIsoOfFormatIso(end);
  }

  /** With the flat decision, on a listing whose next links form a finite
      chain from the root, `main` always ends within as many iterations as
      the chain has pages. */
  lemma FlatMainEnds(startText: string, endText: string, folder: string, chain: seq<string>,
                     src: ListingSource, fs: FileSystem, fuel: nat)
    requires IsNextChain(src, chain) && chain[0] == Root && fuel >= |chain|
    ensures Main(Flat, startText, endText, folder, src, fs, fuel).Some?
  {
    if CheckArguments(startText, endText).Success? {
      var (start, end) := CheckArguments(startText, endText).value;
      DownloadBatchedFlatTerminates(src, start, end, chain, folder, fs, fuel);
    }
  }
}

=== FILE: crawl.dfy ===
/** The `while current_url:` loop of `download_okx_news` in its two versions,
    as a step function over an explicit crawl state. The network is replaced
    by a listing source: a finite map from URL to the page a status-200
    response carries; a URL outside the map answers with another status.
    The loop sees a page only through what scraping it yields, its `Reply`,
    so the loop is stated over the replies of the whole source. */
module Crawl {
  import opened Wrappers
  import opened Dates
  import opened Listing
  import opened BatchWriter

  /** The listing root both loops start from. */
  const Root: string := "https://www.okx.com/help/category/announcements"

  type ListingSource = map<string, Page>

  /** What the loop takes from one readable listing page: the records of
      `scrape_page_articles`, its least date, and `get_next_page_url`. */
  datatype Reply = Reply(records: seq<Record>, earliest: Option<CalendarDate>, next: Option<string>)

  /** One listing page read within the window: the exception scraping it
      raises, or its reply. */
  function Read(page: Page, start: CalendarDate, end: CalendarDate): (r: Result<Reply, CrawlError>)
    ensures r.Success? <==> PageReadable(page.items, start, end)
    ensures r.Success? ==> r.value.records == Harvest(page.items, start, end)
    ensures r.Success? ==> r.value.earliest == PageMinimum(page.items, start, end)
    ensures r.Success? ==> r.value.next == NextPageUrl(page)
  {
    match ScrapePage(page, start, end)
    case Failure(e) => Failure(e)
    case Success(ps) => Success(Reply(ps.records, ps.earliest, NextPageUrl(page)))
  }

  type Replies = map<string, Result<Reply, CrawlError>>

  /** Every page of the source, read within the window. */
  function RepliesOf(src: ListingSource, start: CalendarDate, end: CalendarDate): (rs: Replies)
    ensures forall u :: u in rs <==> u in src
    ensures forall u :: u in src ==> rs[u] == Read(src[u], start, end)
  {
    map u | u in src :: Read(src[u], start, end)
  }

  /** The two loops differ only in where the next-URL decision sits. */
  datatype Variant =
    | Nested  // okx_news_scraper/scraper.py: decided only when the running minimum was set or lowered
    | Flat    // okx-news-scraper/scraper.py: decided after every page

  /** `current_url`, `earliest_date`, and the records found so far in discovery order. */
  datatype CrawlState = CrawlState(url: Option<string>, earliest: Option<CalendarDate>, out: seq<Record>)

  function Initial(): CrawlState
  {
    CrawlState(Some(Root), None, [])
  }

  /** `earliest_date is None or (page_earliest_date and page_earliest_date < earliest_date)`. */
  predicate Lowers(earliest: Option<CalendarDate>, pageMin: Option<CalendarDate>)
  {
    earliest.None? || (pageMin.Some? && Before(pageMin.value, earliest.value))
  }

  /** `get_next_page_url(soup) if earliest_date and earliest_date > start_date else None`. */
  function NextUrl(earliest: Option<CalendarDate>, start: CalendarDate, next: Option<string>): Option<string>
  {
    if earliest.Some? && Before(start, earliest.value) then next else None
  }

  /** The loop body once the page is scraped into `rep`. The records are
      appended and the running minimum absorbs the page minimum, so it never
      rises. The flat loop keeps a URL exactly when the new minimum is after
      `start` and the page has a next URL. The nested loop leaves the URL
      alone when the minimum was not lowered. A new URL is always the page's
      next URL. */
  function AfterPage(v: Variant, s: CrawlState, rep: Reply, start: CalendarDate): (r: CrawlState)
    ensures r.out == s.out + rep.records
    ensures r.earliest == MinOf(s.earliest, rep.earliest)
    ensures s.earliest.Some? ==> r.earliest.Some? && NotAfter(r.earliest.value, s.earliest.value)
    ensures v.Flat? ==> (r.url.Some? <==> r.earliest.Some? && Before(start, r.earliest.value) && rep.next.Some?)
    ensures r.url.Some? && r.url != s.url ==> r.url == rep.next
    ensures v.Nested? && !Lowers(s.earliest, rep.earliest) ==> r.url == s.url
    ensures v.Flat? || Lowers(s.earliest, rep.earliest) ==> r.url == NextUrl(r.earliest, start, rep.next)
  {
    var out := s.out + rep.records;
    if Lowers(s.earliest, rep.earliest) then
      CrawlState(NextUrl(rep.earliest, start, rep.next), rep.earliest, out)
    else
      match v
      case Nested => CrawlState(s.url, s.earliest, out)
      case Flat => CrawlState(NextUrl(s.earliest, start, rep.next), s.earliest, out)
  }

  /** Either loop, after a page that sets or lowers the running minimum:
      the minimum becomes the page's, and the next URL is the page's next
      link exactly when that minimum is after `start`. */
  lemma LoweredMovesOn(v: Variant, s: CrawlState, rep: Reply, start: CalendarDate)
    requires Lowers(s.earliest, rep.earliest)
    ensures AfterPage(v, s, rep, start) == CrawlState(NextUrl(rep.earliest, start, rep.next), rep.earliest, s.out + rep.records)
  {
  }

  /** The flat loop, after a page that leaves a minimum later than `start`
      as it was: it still follows the page's next link. */
  lemma FlatMovesOn(s: CrawlState, rep: Reply, start: CalendarDate)
    requires s.earliest.Some? && Before(start, s.earliest.value) && !Lowers(s.earliest, rep.earliest)
    ensures AfterPage(Flat, s, rep, start) == CrawlState(rep.next, s.earliest, s.out + rep.records)
  {
  }

  /** One iteration of the loop on the page at `s.url`: it raises exactly
      when the listing is unavailable or the page is unreadable, and
      otherwise moves on as `AfterPage` says. */
  function Step(v: Variant, rs: Replies, start: CalendarDate, s: CrawlState): (r: Result<CrawlState, CrawlError>)
    requires s.url.Some?
    ensures r.Success? <==> s.url.value in rs && rs[s.url.value].Success?
    ensures r.Success? ==> r.value == AfterPage(v, s, rs[s.url.value].value, start)
    ensures r.Failure? && s.url.value !in rs ==> r.error == ListingUnavailable(s.url.value)
    ensures r.Failure? && s.url.value in rs ==> r.error == rs[s.url.value].error
  {
    var u := s.url.value;
    if u !in rs then Failure(ListingUnavailable(u))
    else
      match rs[u]
      case Failure(e) => Failure(e)
      case Success(rep) => Success(AfterPage(v, s, rep, start))
  }

  /** On the replies of a source, an iteration fetches the page, raising a
      `ListingUnavailable` when there is none, scrapes it, raising when an
      item is unreadable, and moves on with the page's harvest, its least
      date and its next link. */
  lemma StepOnSource(v: Variant, src: ListingSource, start: CalendarDate, end: CalendarDate, s: CrawlState)
    requires s.url.Some?
    ensures var r := Step(v, RepliesOf(src, start, end), start, s);
      && (r.Failure? && s.url.value !in src ==> r.error == ListingUnavailable(s.url.value))
      && (r.Success? <==> s.url.value in src && PageReadable(src[s.url.value].items, start, end))
      && (r.Success? ==>
            var page := src[s.url.value];
            r.value == AfterPage(v, s, Reply(Harvest(page.items, start, end), PageMinimum(page.items, start, end), NextPageUrl(page)), start))
  {
  }

  /** How a bounded run ends: the loop exits, an exception escapes (with the
      state before the failing iteration), or the fuel runs out while the
      loop would go on. */
  datatype Outcome = Done(state: CrawlState) | Aborted(error: CrawlError, state: CrawlState) | OutOfFuel(state: CrawlState)

  /** At most `fuel` iterations of the loop from `s`. The loop exits only
      once there is no URL; an exception escapes from an iteration that
      raises, at the state it started from; and a run out of fuel still has
      a URL to fetch. */
  function Run(v: Variant, rs: Replies, start: CalendarDate, s: CrawlState, fuel: nat): (r: Outcome)
    ensures r.Done? ==> r.state.url.None?
    ensures r.OutOfFuel? ==> r.state.url.Some?
    ensures r.Aborted? ==> r.state.url.Some? && Step(v, rs, start, r.state) == Failure(r.error)
    ensures s.url.None? ==> r == Done(s)
    decreases fuel
  {
    if s.url.None? then Done(s)
    else if fuel == 0 then OutOfFuel(s)
    else
      match Step(v, rs, start, s)
      case Failure(e) => Aborted(e, s)
      case Success(s') => Run(v, rs, start, s', fuel - 1)
  }

  /** The states at which a run fetches a listing page, in order. */
  function Visits(v: Variant, rs: Replies, start: CalendarDate, s: CrawlState, fuel: nat): seq<CrawlState>
    decreases fuel
  {
    if s.url.None? || fuel == 0 then []
    else
      match Step(v, rs, start, s)
      case Failure(_) => [s]
      case Success(s') => [s] + Visits(v, rs, start, s', fuel - 1)
  }

  /** The crawl of a listing source from the root. */
  function CrawlSource(v: Variant, src: ListingSource, start: CalendarDate, end: CalendarDate, fuel: nat): Outcome
  {
    Run(v, RepliesOf(src, start, end), start, Initial(), fuel)
  }

  // ---------------------------------------------------------------------------
  // Stopping once the window's start is reached

  /** Once the running minimum is at or before `start`, there is no URL left. */
  predicate Settled(s: CrawlState, start: CalendarDate)
  {
    s.earliest.Some? && NotAfter(s.earliest.value, start) ==> s.url.None?
  }

  /** The state a page may be fetched in: there is a URL, and the running
      minimum is unset or after `start`. */
  predicate MayFetch(t: CrawlState, start: CalendarDate)
  {
    t.url.Some? && (t.earliest.None? || Before(start, t.earliest.value))
  }

  /** No listing page is fetched once the running minimum has reached
      `start`: every fetch of a run from a settled state (the initial state
      is one) happens while the minimum is unset or after `start`, and the
      run ends settled. */
  lemma {:induction false} NoFetchOnceStartReached(v: Variant, rs: Replies, start: CalendarDate, s: CrawlState, fuel: nat)
    requires Settled(s, start)
    ensures forall k :: 0 <= k < |Visits(v, rs, start, s, fuel)| ==> MayFetch(Visits(v, rs, start, s, fuel)[k], start)
    ensures Settled(Run(v, rs, start, s, fuel).state, start)
    decreases fuel
  {
    if s.url.Some? && fuel > 0 && Step(v, rs, start, s).Success? {
      var s' := Step(v, rs, start, s).value;
      assert Settled(s', start);
      NoFetchOnceStartReached(v, rs, start, s', fuel - 1);
      var rest := Visits(v, rs, start, s', fuel - 1);
      assert Visits(v, rs, start, s, fuel) == [s] + rest;
      forall k | 0 < k < |[s] + rest| ensures MayFetch(([s] + rest)[k], start) {
        assert ([s] + rest)[k] == rest[k - 1];
      }
    }
  }

  /** The running minimum over a run never rises. */
  lemma {:induction false} EarliestNeverRises(v: Variant, rs: Replies, start: CalendarDate, s: CrawlState, fuel: nat)
    ensures var t := Run(v, rs, start, s, fuel).state;
      s.earliest.Some? ==> t.earliest.Some? && NotAfter(t.earliest.value, s.earliest.value)
    decreases fuel
  {
    if s.url.Some? && fuel > 0 && Step(v, rs, start, s).Success? {
      var s' := Step(v, rs, start, s).value;
      EarliestNeverRises(v, rs, start, s', fuel - 1);
      if s.earliest.Some? {
        var t := Run(v, rs, start, s', fuel - 1).state;
        BeforeIsStrictTotalOrder(t.earliest.value, s'.earliest.value, s.earliest.value);
        BeforeIsStrictTotalOrder(s.earliest.value, s'.earliest.value, t.earliest.value);
      }
    }
  }

  /** Records whose dates all read back as dates inside the window. */
  predicate AllWithin(xs: seq<Record>, start: CalendarDate, end: CalendarDate)
  {
    forall k :: 0 <= k < |xs| ==> DatedWithin(xs[k], start, end)
  }

  /** Every reply of `rs` holds only records dated inside the window. */
  predicate RepliesWithin(rs: Replies, start: CalendarDate, end: CalendarDate)
  {
    forall u :: u in rs && rs[u].Success? ==> AllWithin(rs[u].value.records, start, end)
  }

  lemma RepliesOfWithin(src: ListingSource, start: CalendarDate, end: CalendarDate)
    ensures RepliesWithin(RepliesOf(src, start, end), start, end)
  {
    var rs := RepliesOf(src, start, end);
    forall u | u in rs && rs[u].Success? ensures AllWithin(rs[u].value.records, start, end) {
      HarvestInWindow(src[u].items, start, end);
    }
  }

  /** Records found by a run stay in the window: every record's date reads
      back as a date between `start` and `end`. */
  lemma {:induction false} RunRecordsInWindow(v: Variant, rs: Replies, start: CalendarDate, end: CalendarDate, s: CrawlState, fuel: nat)
    requires RepliesWithin(rs, start, end) && AllWithin(s.out, start, end)
    ensures AllWithin(Run(v, rs, start, s, fuel).state.out, start, end)
    decreases fuel
  {
    if s.url.Some? && fuel > 0 && Step(v, rs, start, s).Success? {
      var s' := Step(v, rs, start, s).value;
      var h := rs[s.url.value].value.records;
      assert AllWithin(h, start, end);
      assert s'.out == s.out + h;
      AppendAll(r => DatedWithin(r, start, end), s.out, h);
      RunRecordsInWindow(v, rs, start, end, s', fuel - 1);
    }
  }

  /** A crawl of a source finds only records of the window. */
  lemma CrawlRecordsInWindow(v: Variant, src: ListingSource, start: CalendarDate, end: CalendarDate, fuel: nat)
    ensures AllWithin(CrawlSource(v, src, start, end, fuel).state.out, start, end)
  {
    RepliesOfWithin(src, start, end);
    RunRecordsInWindow(v, RepliesOf(src, start, end), start, end, Initial(), fuel);
  }

  /** A run only adds records: what was found before is a prefix of what is found after. */
  lemma {:induction false} RunExtendsOutput(v: Variant, rs: Replies, start: CalendarDate, s: CrawlState, fuel: nat)
    ensures var o := Run(v, rs, start, s, fuel).state.out;
      |s.out| <= |o| && o[..|s.out|] == s.out
    decreases fuel
  {
    if s.url.Some? && fuel > 0 && Step(v, rs, start, s).Success? {
      var s' := Step(v, rs, start, s).value;
      RunExtendsOutput(v, rs, start, s', fuel - 1);
      var o := Run(v, rs, start, s, fuel).state.out;
      assert o[..|s'.out|][..|s.out|] == o[..|s.out|];
    }
  }

  // ---------------------------------------------------------------------------
  // The flat loop ends on a finite next-chain

  /** `chain` is the sequence of URLs reached by following next links from
      `chain[0]`, ending where there is no next link or no page. */
  predicate IsNextChain(src: ListingSource, chain: seq<string>)
  {
    |chain| > 0
    && (forall i :: 0 <= i < |chain| - 1 ==> chain[i] in src && NextPageUrl(src[chain[i]]) == Some(chain[i + 1]))
    && (chain[|chain| - 1] in src ==> NextPageUrl(src[chain[|chain| - 1]]).None?)
  }

  /** A next-chain never revisits a URL: following a cycle would never end. */
  lemma ChainIsAcyclic(src: ListingSource, chain: seq<string>)
    requires IsNextChain(src, chain)
    ensures forall i, j :: 0 <= i < j < |chain| ==> chain[i] != chain[j]
  {
    forall i, j | 0 <= i < j < |chain| ensures chain[i] != chain[j] {
      ChainNoRepeat(src, chain, i, j);
    }
  }

  lemma {:induction false} ChainNoRepeat(src: ListingSource, chain: seq<string>, i: nat, j: nat)
    requires IsNextChain(src, chain) && i < j < |chain|
    ensures chain[i] != chain[j]
    decreases |chain| - j
  {
    assert NextPageUrl(src[chain[i]]) == Some(chain[i + 1]);
    if j < |chain| - 1 {
      assert NextPageUrl(src[chain[j]]) == Some(chain[j + 1]);
      ChainNoRepeat(src, chain, i + 1, j + 1);
    }
  }

  /** The replies along a chain: each readable page but the last names the
      next URL of the chain, and the last names none. */
  predicate RepliesFollow(rs: Replies, chain: seq<string>)
  {
    |chain| > 0
    && (forall i :: 0 <= i < |chain| - 1 ==>
          chain[i] in rs && (rs[chain[i]].Success? ==> rs[chain[i]].value.next == Some(chain[i + 1])))
    && (chain[|chain| - 1] in rs && rs[chain[|chain| - 1]].Success? ==> rs[chain[|chain| - 1]].value.next.None?)
  }

  lemma RepliesOfFollow(src: ListingSource, start: CalendarDate, end: CalendarDate, chain: seq<string>)
    requires IsNextChain(src, chain)
    ensures RepliesFollow(RepliesOf(src, start, end), chain)
  {
  }

  /** From a state positioned on the chain, the flat loop needs no more
      iterations than the chain has URLs left: its k-th fetch is the chain's
      URL k places on, and it stops at the chain's end at the latest. */
  lemma {:induction false} FlatRunFollowsChain(rs: Replies, start: CalendarDate, chain: seq<string>, i: nat, s: CrawlState, fuel: nat)
    requires RepliesFollow(rs, chain) && i < |chain|
    requires s.url.None? || s.url == Some(chain[i])
    requires fuel >= |chain| - i
    ensures !Run(Flat, rs, start, s, fuel).OutOfFuel?
    ensures |Visits(Flat, rs, start, s, fuel)| <= |chain| - i
    ensures var vs := Visits(Flat, rs, start, s, fuel);
      forall k :: 0 <= k < |vs| ==> i + k < |chain| && vs[k].url == Some(chain[i + k])
    decreases fuel
  {
    if s.url.Some? && Step(Flat, rs, start, s).Success? {
      var s' := Step(Flat, rs, start, s).value;
      var vs := Visits(Flat, rs, start, s, fuel);
      assert vs == [s] + Visits(Flat, rs, start, s', fuel - 1);
      assert s'.url.Some? ==> s'.url == rs[chain[i]].value.next;
      if i < |chain| - 1 {
        FlatRunFollowsChain(rs, start, chain, i + 1, s', fuel - 1);
        forall k | 0 <= k < |vs|
          ensures i + k < |chain| && vs[k].url == Some(chain[i + k])
        {
          if k > 0 {
            assert vs[k] == Visits(Flat, rs, start, s', fuel - 1)[k - 1];
          }
        }
      } else {
        assert s'.url.None?;
      }
    }
  }

  /** Over a finite next-chain from the root, the flat loop terminates within
      as many iterations as the chain is long. It fetches the chain's URLs in
      order, so it fetches no URL twice. */
  lemma FlatCrawlTerminates(src: ListingSource, start: CalendarDate, end: CalendarDate, chain: seq<string>, fuel: nat)
    requires IsNextChain(src, chain) && chain[0] == Root
    requires fuel >= |chain|
    ensures !CrawlSource(Flat, src, start, end, fuel).OutOfFuel?
    ensures |Visits(Flat, RepliesOf(src, start, end), start, Initial(), fuel)| <= |chain|
    ensures var vs := Visits(Flat, RepliesOf(src, start, end), start, Initial(), fuel);
      forall k :: 0 <= k < |vs| ==> vs[k].url == Some(chain[k])
    ensures var vs := Visits(Flat, RepliesOf(src, start, end), start, Initial(), fuel);
      forall j, k :: 0 <= j < k < |vs| ==> vs[j].url != vs[k].url
  {
    var rs := RepliesOf(src, start, end);
    RepliesOfFollow(src, start, end, chain);
    ChainIsAcyclic(src, chain);
    FlatRunFetchesChainOnce(rs, start, chain, fuel);
  }

  /** On replies that follow a chain of distinct URLs from the root, the flat
      loop fetches the chain's URLs in order, each at most once. */
  lemma FlatRunFetchesChainOnce(rs: Replies, start: CalendarDate, chain: seq<string>, fuel: nat)
    requires RepliesFollow(rs, chain) && chain[0] == Root && fuel >= |chain|
    requires forall i, j :: 0 <= i < j < |chain| ==> chain[i] != chain[j]
    ensures !Run(Flat, rs, start, Initial(), fuel).OutOfFuel?
    ensures |Visits(Flat, rs, start, Initial(), fuel)| <= |chain|
    ensures var vs := Visits(Flat, rs, start, Initial(), fuel);
      forall k :: 0 <= k < |vs| ==> vs[k].url == Some(chain[k])
    ensures var vs := Visits(Flat, rs, start, Initial(), fuel);
      forall j, k :: 0 <= j < k < |vs| ==> vs[j].url != vs[k].url
  {
    var vs := Visits(Flat, rs, start, Initial(), fuel);
    FlatRunFollowsChain(rs, start, chain, 0, Initial(), fuel);
    forall j, k | 0 <= j < k < |vs|
      ensures vs[j].url != vs[k].url
    {
      assert vs[j].url == Some(chain[j]) && vs[k].url == Some(chain[k]);
    }
  }

  // ---------------------------------------------------------------------------
  // The nested loop stalls

  /** The page at `s.url` is readable and does not lower the running minimum. */
  predicate Stalls(rs: Replies, s: CrawlState)
  {
    s.url.Some? && s.url.value in rs && rs[s.url.value].Success?
    && !Lowers(s.earliest, rs[s.url.value].value.earliest)
  }

  /** On such a page the nested loop keeps its URL and minimum, so it fetches
      the same page again and appends the same records again. */
  lemma NestedStepStalls(rs: Replies, start: CalendarDate, s: CrawlState)
    requires Stalls(rs, s)
    ensures Step(Nested, rs, start, s) == Success(CrawlState(s.url, s.earliest, s.out + rs[s.url.value].value.records))
  {
  }

  /** Hence it never leaves the loop: however much fuel it is given, it runs
      out, still on the same URL and minimum, having appended the page's
      records once per iteration. */
  lemma {:induction false} NestedRunNeverEnds(rs: Replies, start: CalendarDate, s: CrawlState, fuel: nat)
    requires Stalls(rs, s)
    ensures Run(Nested, rs, start, s, fuel).OutOfFuel?
    ensures var t := Run(Nested, rs, start, s, fuel).state;
      t.url == s.url && t.earliest == s.earliest
      && |t.out| == |s.out| + fuel * |rs[s.url.value].value.records|
    decreases fuel
  {
    if fuel > 0 {
      var h := rs[s.url.value].value.records;
      NestedStepStalls(rs, start, s);
      NestedRunNeverEnds(rs, start, CrawlState(s.url, s.earliest, s.out + h), fuel - 1);
      assert (fuel - 1) * |h| + |h| == fuel * |h|;
    }
  }

  // ---------------------------------------------------------------------------
  // The batched writer of okx_news_scraper/scraper.py

  datatype BatchedOutcome = BatchedOutcome(outcome: Outcome, writer: Writer)

  /** The loop of okx_news_scraper/scraper.py with its batch buffer: after
      every page the page's records join the buffer, which is flushed when it
      reaches `BatchSize`. An exception loses the buffer; what was flushed stays. */
  function RunBatched(v: Variant, rs: Replies, start: CalendarDate, s: CrawlState, w: Writer, fuel: nat): (r: BatchedOutcome)
    ensures r.outcome.Done? ==> r.outcome.state.url.None?
    ensures r.outcome.Aborted? ==> r.outcome.state.url.Some? && Step(v, rs, start, r.outcome.state) == Failure(r.outcome.error)
    ensures |w.buffer| < BatchSize ==> |r.writer.buffer| < BatchSize
    decreases fuel
  {
    if s.url.None? then BatchedOutcome(Done(s), w)
    else if fuel == 0 then BatchedOutcome(OutOfFuel(s), w)
    else
      match Step(v, rs, start, s)
      case Failure(e) => BatchedOutcome(Aborted(e, s), w)
      case Success(s') => RunBatched(v, rs, start, s', Absorb(w, rs[s.url.value].value.records), fuel - 1)
  }

  /** Batching changes nothing about the crawl, and the writer always holds
      the starting file followed by the records found so far, split between
      the file and the buffer. */
  lemma {:induction false} RunBatchedTracksRun(v: Variant, rs: Replies, start: CalendarDate,
                                               s: CrawlState, w: Writer, file0: File, fuel: nat)
    requires Tracks(w, file0, s.out)
    ensures RunBatched(v, rs, start, s, w, fuel).outcome == Run(v, rs, start, s, fuel)
    ensures Tracks(RunBatched(v, rs, start, s, w, fuel).writer, file0, Run(v, rs, start, s, fuel).state.out)
    decreases fuel
  {
    if s.url.Some? && fuel > 0 && Step(v, rs, start, s).Success? {
      var s' := Step(v, rs, start, s).value;
      var h := rs[s.url.value].value.records;
      AbsorbTracks(w, file0, s.out, h);
      RunBatchedTracksRun(v, rs, start, s', Absorb(w, h), file0, fuel - 1);
    }
  }
}

=== FILE: date_text.dfy ===
/** Reading and printing dates: `validate_date_format` (`strptime(s, '%Y-%m-%d')`),
    the listing's date labels (`strptime(label, '%b %d, %Y')` after dropping the
    "Published on " prefix), and the `%Y-%m-%d` and `%Y%m%d` forms the scrapers print.

    `strptime` compiles its format into a regular expression and raises
    ValueError when the expression does not match, when text is left over after
    the match, or when the fields name no real date. Each directive is modelled
    by the alternatives of its regular expression. Because no alternative
    contains the literal that follows it in the format, the text a directive
    consumes is exactly the text up to that literal. */
module DateText {
  import opened Wrappers
  import opened Text
  import opened Dates

  const MonthAbbreviations: seq<string> :=
    ["Jan", "Feb", "Mar", "Apr", "May", "Jun", "Jul", "Aug", "Sep", "Oct", "Nov", "Dec"]

  /** Lower-case spellings of the month abbreviations, as `%b` compares them. */
  const MonthKeys: seq<string> :=
    ["jan", "feb", "mar", "apr", "may", "jun", "jul", "aug", "sep", "oct", "nov", "dec"]

  /** The literal the listing writes before every date label. */
  const LabelPrefix: string := "Published on "

  /** The message `validate_date_format` raises for `s`. */
  function InvalidDateMessage(s: string): string
  {
    "Date format for '" + s + "' is invalid. Use YYYY-MM-DD."
  }

  /** The shape of a `YYYY-MM-DD` string with every field zero padded. */
  predicate ZeroPadded(s: string)
  {
    |s| == 10 && s[4] == '-' && s[7] == '-'
    && AllDigits(s[..4]) && AllDigits(s[5..7]) && AllDigits(s[8..])
  }

  // ---------------------------------------------------------------------------
  // Printing

  /** `d.strftime('%Y-%m-%d')`: the full-date of section 5.6 of RFC 3339. */
  function FormatIso(d: CalendarDate): (s: string)
    ensures ZeroPadded(s)
  {
    var s := Pad4(d.year) + "-" + Pad2(d.month) + "-" + Pad2(d.day);
    assert s[..4] == Pad4(d.year) && s[5..7] == Pad2(d.month) && s[8..] == Pad2(d.day);
    s
  }

  /** `d.strftime('%Y%m%d')`: the basic calendar-date form of section 4.1.2.2 of
      ISO 8601:2004, whose digits read as a number give the date's `Key`. */
  function FormatBasic(d: CalendarDate): (s: string)
    ensures |s| == 8 && AllDigits(s)
    ensures DigitsValue(s) == Key(d)
  {
    var ym := Pad4(d.year) + Pad2(d.month);
    DigitsValueOfAppend2(Pad4(d.year), Pad2(d.month));
    DigitsValueOfAppend2(ym, Pad2(d.day));
    ym + Pad2(d.day)
  }

  /** The basic form is the extended form without its hyphens. */
  lemma FormatBasicDropsHyphens(d: CalendarDate)
    ensures var s := FormatIso(d); FormatBasic(d) == s[..4] + s[5..7] + s[8..]
  {
    var s := FormatIso(d);
    assert s[..4] == Pad4(d.year) && s[5..7] == Pad2(d.month) && s[8..] == Pad2(d.day);
  }

  /** Distinct dates give distinct basic forms, and the text order of the basic
      forms is the date order. */
  lemma FormatBasicIsFaithful(a: CalendarDate, b: CalendarDate)
    ensures FormatBasic(a) == FormatBasic(b) <==> a == b
    ensures Before(a, b) <==> DigitsValue(FormatBasic(a)) < DigitsValue(FormatBasic(b))
  {
    BeforeIsKeyOrder(a, b);
    BeforeIsKeyOrder(b, a);
  }

  /** How the listing prints a day of the month: no leading zero. */
  function DayText(d: int): (s: string)
    requires 1 <= d <= 31
    ensures 1 <= |s| <= 2 && AllDigits(s) && DigitsValue(s) == d
  {
    if d < 10 then
      var s := [DigitChar(d)];
      assert s[..0] == [];
      s
    else Pad2(d)
  }

  /** A date label as the listing writes it, e.g. "Published on Oct 5, 2020". */
  function FormatLabel(d: CalendarDate): string
  {
    LabelPrefix + LabelBody(d)
  }

  // ---------------------------------------------------------------------------
  // Directives

  /** `%Y`: the regular expression `\d\d\d\d`. */
  function ParseYearToken(t: string): (r: Option<int>)
    ensures r.Some? <==> |t| == 4 && AllDigits(t)
    ensures r.Some? ==> r.value == DigitsValue(t)
  {
    if |t| == 4 && AllDigits(t) then Some(DigitsValue(t)) else None
  }

  /** `%m`: the regular expression `1[0-2]|0[1-9]|[1-9]`. */
  function ParseMonthToken(t: string): (r: Option<int>)
    ensures r.Some? ==> 1 <= r.value <= 12
    ensures r.Some? ==> AllDigits(t) && r.value == DigitsValue(t)
  {
    if |t| == 2 && t[0] == '1' && '0' <= t[1] <= '2' then
      DigitsValueOfTwo(t);
      Some(10 + DigitValue(t[1]))
    else if |t| == 2 && t[0] == '0' && '1' <= t[1] <= '9' then
      DigitsValueOfTwo(t);
      Some(DigitValue(t[1]))
    else if |t| == 1 && '1' <= t[0] <= '9' then
      assert t[..0] == [];
      Some(DigitValue(t[0]))
    else None
  }

  /** `%d`: the regular expression `3[01]|[12]\d|0[1-9]|[1-9]| [1-9]`; the last
      alternative reads a day padded with a space. */
  function ParseDayToken(t: string): (r: Option<int>)
    ensures r.Some? ==> 1 <= r.value <= 31
    ensures r.Some? && AllDigits(t) ==> r.value == DigitsValue(t)
  {
    if |t| == 2 && t[0] == '3' && '0' <= t[1] <= '1' then
      DigitsValueOfTwo(t);
      Some(30 + DigitValue(t[1]))
    else if |t| == 2 && '1' <= t[0] <= '2' && IsDigit(t[1]) then
      DigitsValueOfTwo(t);
      Some(DigitValue(t[0]) * 10 + DigitValue(t[1]))
    else if |t| == 2 && t[0] == '0' && '1' <= t[1] <= '9' then
      DigitsValueOfTwo(t);
      Some(DigitValue(t[1]))
    else if |t| == 1 && '1' <= t[0] <= '9' then
      assert t[..0] == [];
      Some(DigitValue(t[0]))
    else if |t| == 2 && t[0] == ' ' && '1' <= t[1] <= '9' then
      Some(DigitValue(t[1]))
    else None
  }

  /** `%b` in the English locale: a three-letter month abbreviation, any case. */
  function MonthOfAbbreviation(t: string): (r: Option<int>)
    ensures r.Some? ==> 1 <= r.value <= 12 && Lower(t) == MonthKeys[r.value - 1]
    ensures r.None? <==> Lower(t) !in MonthKeys
  {
    MonthOfKey(Lower(t))
  }

  /** The month a lower-case key names, read letter by letter. */
  function MonthOfKey(l: string): (r: Option<int>)
    ensures r.Some? ==> 1 <= r.value <= 12 && l == MonthKeys[r.value - 1]
    ensures r.None? <==> l !in MonthKeys
  {
    if |l| != 3 then None
    else match (l[0], l[1], l[2])
      case ('j', 'a', 'n') => Some(1)
      case ('f', 'e', 'b') => Some(2)
      case ('m', 'a', 'r') => Some(3)
      case ('a', 'p', 'r') => Some(4)
      case ('m', 'a', 'y') => Some(5)
      case ('j', 'u', 'n') => Some(6)
      case ('j', 'u', 'l') => Some(7)
      case ('a', 'u', 'g') => Some(8)
      case ('s', 'e', 'p') => Some(9)
      case ('o', 'c', 't') => Some(10)
      case ('n', 'o', 'v') => Some(11)
      case ('d', 'e', 'c') => Some(12)
      case _ => None
  }

  /** The twelve keys are distinct, so each is found as its own month. */
  lemma MonthOfKeyOfKey(i: nat)
    requires i < 12
    ensures MonthOfKey(MonthKeys[i]) == Some(i + 1)
  {
  }

  /** `datetime(y, m, d)`, which raises ValueError unless the date exists. */
  function MakeDate(y: int, m: int, d: int): (r: Option<CalendarDate>)
    ensures r.Some? <==> Valid(Date(y, m, d))
    ensures r.Some? ==> r.value == Date(y, m, d)
  {
    if Valid(Date(y, m, d)) then Some(Date(y, m, d)) else None
  }

  // ---------------------------------------------------------------------------
  // Parsing

  /** After `YYYY-`, `s` holds a month token, a hyphen and a day token that
      `%m` and `%d` read as the month and day of `d`. */
  ghost predicate FieldsRead(s: string, d: CalendarDate)
    requires |s| >= 5
  {
    exists mt, dt :: s[5..] == mt + ['-'] + dt && '-' !in mt
      && ParseMonthToken(mt) == Some(d.month) && ParseDayToken(dt) == Some(d.day)
  }

  /** `datetime.strptime(s, '%Y-%m-%d')`: the date, or None where it raises
      ValueError. An accepted string is four year digits, a hyphen, then the
      month and day tokens around the next hyphen, naming a real date. */
  function ParseIso(s: string): (r: Option<CalendarDate>)
    ensures r.Some? ==> 8 <= |s| <= 10 && s[4] == '-' && AllDigits(s[..4])
    ensures r.Some? ==> DigitsValue(s[..4]) == r.value.year && FieldsRead(s, r.value)
  {
    if |s| < 5 || s[4] != '-' then None
    else match SplitAt(s[5..], '-')
      case None => None
      case Some((mt, dt)) =>
        match (ParseYearToken(s[..4]), ParseMonthToken(mt), ParseDayToken(dt))
        case (Some(y), Some(m), Some(d)) =>
          assert MakeDate(y, m, d).Some? ==> FieldsRead(s, MakeDate(y, m, d).value);
          MakeDate(y, m, d)
        case _ => None
  }

  /** `validate_date_format`: the parsed date, or the ValueError it re-raises,
      whose message quotes the input and asks for YYYY-MM-DD. */
  function ValidateDateFormat(s: string): (r: Result<CalendarDate, string>)
    ensures r.Success? <==> ParseIso(s).Some?
    ensures r.Success? ==> r.value == ParseIso(s).value
    ensures r.Failure? ==> Occurs(r.error, s) && EndsWith(r.error, "Use YYYY-MM-DD.")
  {
    match ParseIso(s)
    case Some(d) => Success(d)
    case None =>
      OccursInside("Date format for '", s, "' is invalid. Use YYYY-MM-DD.");
      Failure(InvalidDateMessage(s))
  }

  /** After the month abbreviation and a space, `t` holds a day token, a
      comma, a space and a year token that `%d` and `%Y` read as the day and
      year of `d`. */
  ghost predicate LabelFieldsRead(t: string, d: CalendarDate)
    requires |t| >= 4
  {
    exists dt, yt :: t[4..] == dt + [','] + (" " + yt) && ',' !in dt
      && ParseDayToken(dt) == Some(d.day) && ParseYearToken(yt) == Some(d.year)
  }

  /** `datetime.strptime(t, '%b %d, %Y')`, with each white-space run of the
      format read as exactly one space. An accepted text starts with the
      abbreviation of the date's month and a space, then the day and year
      tokens around the first comma. */
  function ParseMonDayYear(t: string): (r: Option<CalendarDate>)
    ensures r.Some? ==> |t| >= 4 && t[3] == ' ' && MonthOfAbbreviation(t[..3]) == Some(r.value.month)
  {
    if |t| < 4 || t[3] != ' ' then None
    else match (MonthOfAbbreviation(t[..3]), SplitAt(t[4..], ','))
      case (Some(m), Some((dt, rest))) =>
        if |rest| >= 1 && rest[0] == ' ' then
          match (ParseDayToken(dt), ParseYearToken(rest[1..]))
          case (Some(d), Some(y)) => MakeDate(y, m, d)
          case _ => None
        else None
      case _ => None
  }

  /** The day and year of an accepted date are those read from the tokens
      around the first comma after the month. */
  lemma ParseMonDayYearReadsFields(t: string)
    ensures ParseMonDayYear(t).Some? ==> |t| >= 4 && LabelFieldsRead(t, ParseMonDayYear(t).value)
  {
    if |t| >= 4 && t[3] == ' ' {
      match (MonthOfAbbreviation(t[..3]), SplitAt(t[4..], ','))
      case (Some(m), Some((dt, rest))) =>
        if |rest| >= 1 && rest[0] == ' ' {
          match (ParseDayToken(dt), ParseYearToken(rest[1..]))
          case (Some(d), Some(y)) =>
            assert rest == " " + rest[1..];
            assert MakeDate(y, m, d).Some? ==> LabelFieldsRead(t, MakeDate(y, m, d).value);
          case _ =>
        }
      case _ =>
    }
  }

  /** How both scrapers read an item's date label:
      `strptime(label.strip().replace('Published on ', ''), '%b %d, %Y')`.
      A label that is already bare, with no outer white space and no
      prefix, is read as it stands. */
  function ParseLabel(text: string): (r: Option<CalendarDate>)
    ensures |text| > 0 && !IsSpace(text[0]) && !IsSpace(text[|text| - 1]) && !Occurs(text, LabelPrefix) ==>
      r == ParseMonDayYear(text)
  {
    ParseMonDayYear(ReplaceAll(Strip(text), LabelPrefix, ""))
  }

  // ---------------------------------------------------------------------------
  // Properties

  lemma ParseMonthTokenOfPad2(m: nat)
    requires m < 100
    ensures ParseMonthToken(Pad2(m)) == if 1 <= m <= 12 then Some(m) else None
  {
    var t := Pad2(m);
    DigitsValueOfTwo(t);
  }

  lemma ParseDayTokenOfPad2(d: nat)
    requires d < 100
    ensures ParseDayToken(Pad2(d)) == if 1 <= d <= 31 then Some(d) else None
  {
    var t := Pad2(d);
    DigitsValueOfTwo(t);
  }

  /** `%m` also reads a month written without its leading zero. */
  lemma ParseMonthTokenOfDayText(m: int)
    requires 1 <= m <= 12
    ensures ParseMonthToken(DayText(m)) == Some(m)
    ensures '-' !in DayText(m)
  {
    var t := DayText(m);
    assert forall i :: 0 <= i < |t| ==> IsDigit(t[i]);
    if m >= 10 {
      DigitsValueOfTwo(t);
    }
  }

  /** Month and day need no zero padding: `2020-1-5` reads as 5 January 2020,
      as `strptime` reads it. */
  lemma ParseIsoOfUnpadded(d: CalendarDate)
    ensures ParseIso(Pad4(d.year) + "-" + DayText(d.month) + "-" + DayText(d.day)) == Some(d)
  {
    var mt := DayText(d.month);
    var dt := DayText(d.day);
    var s := Pad4(d.year) + "-" + mt + "-" + dt;
    assert s[..4] == Pad4(d.year);
    assert s[5..] == mt + ['-'] + dt;
    ParseMonthTokenOfDayText(d.month);
    SplitAtFirst(mt, '-', dt);
    ParseDayTokenOfDayText(d.day);
  }

  /** The converse of `ParseIso`'s contract: every string of four year
      digits, a hyphen and month and day tokens that `%m` and `%d` read as
      the date's is accepted as that date, whatever mix of zero-, space- and
      no padding the tokens use (`2020-01-5`, `2020-10- 5`). */
  lemma ParseIsoComplete(s: string, d: CalendarDate)
    requires |s| >= 5 && s[4] == '-' && AllDigits(s[..4]) && DigitsValue(s[..4]) == d.year
    requires FieldsRead(s, d)
    ensures ParseIso(s) == Some(d)
  {
    var mt, dt :| s[5..] == mt + ['-'] + dt && '-' !in mt
      && ParseMonthToken(mt) == Some(d.month) && ParseDayToken(dt) == Some(d.day);
    SplitAtFirst(mt, '-', dt);
  }

  /** A zero-padded month with an unpadded day. */
  lemma MixedPaddingExample()
    ensures ParseIso("2020-01-5") == Some(Date(2020, 1, 5))
  {
    var s := "2020-01-5";
    assert s[..4] == "2020" && s[5..] == "01" + ['-'] + "5";
    assert DigitsValue("2020") == 2020 by {
      DigitsValueOfTwo("20");
      DigitsValueOfAppend2("20", "20");
      assert "20" + "20" == "2020";
    }
    assert ParseMonthToken("01") == Some(1);
    assert ParseDayToken("5") == Some(5);
    ParseIsoComplete(s, Date(2020, 1, 5));
  }

  /** A day padded with a space, as `%d` allows. */
  lemma SpacePaddedDayExample()
    ensures ParseIso("2020-10- 5") == Some(Date(2020, 10, 5))
  {
    var s := "2020-10- 5";
    assert s[..4] == "2020" && s[5..] == "10" + ['-'] + " 5";
    assert DigitsValue("2020") == 2020 by {
      DigitsValueOfTwo("20");
      DigitsValueOfAppend2("20", "20");
      assert "20" + "20" == "2020";
    }
    assert ParseMonthToken("10") == Some(10) by { DigitsValueOfTwo("10"); }
    assert ParseDayToken(" 5") == Some(5);
    ParseIsoComplete(s, Date(2020, 10, 5));
  }

  /** Printing then parsing gives the date back (the full-date round trip of
      section 5.6 of RFC 3339). */
  lemma ParseIsoOfFormatIso(d: CalendarDate)
    ensures ParseIso(FormatIso(d)) == Some(d)
  {
    var s := FormatIso(d);
    var mt := Pad2(d.month);
    var dt := Pad2(d.day);
    assert s[..4] == Pad4(d.year);
    assert s[5..] == mt + ['-'] + dt;
    assert '-' !in mt;
    SplitAtFirst(mt, '-', dt);
    ParseMonthTokenOfPad2(d.month);
    ParseDayTokenOfPad2(d.day);
  }

  lemma Pad2OfTwoDigits(t: string)
    requires |t| == 2 && AllDigits(t)
    ensures DigitsValue(t) < 100 && Pad2(DigitsValue(t)) == t
  {
    DigitsValueOfTwo(t);
    var v := DigitsValue(t);
    assert v / 10 == DigitValue(t[0]) && v % 10 == DigitValue(t[1]);
    DigitCharOfValue(t[0]);
    DigitCharOfValue(t[1]);
  }

  lemma DigitCharOfValue(c: char)
    requires IsDigit(c)
    ensures DigitChar(DigitValue(c)) == c
  {
  }

  lemma Pad4OfFourDigits(t: string)
    requires |t| == 4 && AllDigits(t)
    ensures DigitsValue(t) < 10000 && Pad4(DigitsValue(t)) == t
  {
    var hi := t[..2];
    var lo := t[2..];
    assert t == hi + lo;
    DigitsValueOfAppend2(hi, lo);
    Pad2OfTwoDigits(hi);
    Pad2OfTwoDigits(lo);
    var v := DigitsValue(t);
    assert v == DigitsValue(hi) * 100 + DigitsValue(lo);
    assert v / 100 == DigitsValue(hi) && v % 100 == DigitsValue(lo);
  }

  /** A zero-padded string that parses is printed back exactly, so the record
      dates the scrapers write read back as the same text. */
  lemma FormatIsoOfParseIso(s: string)
    requires ZeroPadded(s) && ParseIso(s).Some?
    ensures FormatIso(ParseIso(s).value) == s
  {
    var d := ParseIso(s).value;
    var mt := s[5..7];
    var dt := s[8..];
    assert s[5..] == mt + ['-'] + dt;
    assert '-' !in mt by {
      assert forall i :: 0 <= i < |mt| ==> IsDigit(mt[i]);
    }
    SplitAtFirst(mt, '-', dt);
    Pad4OfFourDigits(s[..4]);
    Pad2OfTwoDigits(mt);
    Pad2OfTwoDigits(dt);
    assert s == s[..4] + "-" + mt + "-" + dt;
  }

  /** A month outside 1..12, a day the month does not have (29 February
      outside leap years included) or year 0 is rejected. */
  lemma ParseIsoRejectsNonDates(y: nat, m: nat, d: nat)
    requires y < 10000 && m < 100 && d < 100
    requires !Valid(Date(y, m, d))
    ensures ParseIso(Pad4(y) + "-" + Pad2(m) + "-" + Pad2(d)) == None
  {
    var s := Pad4(y) + "-" + Pad2(m) + "-" + Pad2(d);
    var mt := Pad2(m);
    var dt := Pad2(d);
    assert s[..4] == Pad4(y);
    assert s[5..] == mt + ['-'] + dt;
    assert '-' !in mt;
    SplitAtFirst(mt, '-', dt);
    ParseMonthTokenOfPad2(m);
    ParseDayTokenOfPad2(d);
  }

  /** Text after a complete date is "unconverted data" and raises. */
  lemma ParseIsoRejectsTrailing(s: string, t: string)
    requires ZeroPadded(s) && |t| > 0
    ensures ParseIso(s + t) == None
  {
    var st := s + t;
    var mt := s[5..7];
    var dt := s[8..] + t;
    assert st[5..] == mt + ['-'] + dt;
    assert '-' !in mt by {
      assert forall i :: 0 <= i < |mt| ==> IsDigit(mt[i]);
    }
    SplitAtFirst(mt, '-', dt);
  }

  /** The examples of the command-line contract: a real date is accepted and
      returned at midnight, a thirteenth month or a fortieth day is refused,
      and text that is no date is refused with the message that quotes it. */
  lemma ValidDateExample()
    ensures ValidateDateFormat("2020-10-01") == Success(Date(2020, 10, 1))
  {
    assert FormatIso(Date(2020, 10, 1)) == "2020-10-01" by {
      assert Pad2(20) == "20" && Pad2(10) == "10" && Pad2(1) == "01";
    }
    ParseIsoOfFormatIso(Date(2020, 10, 1));
  }

  lemma OutOfRangeDateExample()
    ensures ValidateDateFormat("2020-13-40").Failure?
  {
    assert Pad2(20) == "20" && Pad2(13) == "13" && Pad2(40) == "40";
    assert Pad4(2020) + "-" + Pad2(13) + "-" + Pad2(40) == "2020-13-40";
    ParseIsoRejectsNonDates(2020, 13, 40);
  }

  lemma NonDateExample()
    ensures ValidateDateFormat("not-a-date") == Failure(InvalidDateMessage("not-a-date"))
  {
    var s := "not-a-date";
    assert s[4] == 'a';
    RejectedWithoutDash(s);
  }

  /** Text whose fifth character is not `-` is refused with its message. */
  lemma RejectedWithoutDash(s: string)
    requires |s| >= 5 && s[4] != '-'
    ensures ValidateDateFormat(s) == Failure(InvalidDateMessage(s))
  {
  }

  lemma LowerOfThree(t: string, k: string)
    requires |t| == 3 && |k| == 3
    requires LowerChar(t[0]) == k[0] && LowerChar(t[1]) == k[1] && LowerChar(t[2]) == k[2]
    ensures Lower(t) == k
  {
  }

  lemma LowerOfAbbreviation(i: nat)
    requires i < 12
    ensures Lower(MonthAbbreviations[i]) == MonthKeys[i]
  {
    var t := MonthAbbreviations[i];
    var k := MonthKeys[i];
    assert |t| == 3 && |k| == 3;
    assert LowerChar(t[0]) == k[0] && t[1] == k[1] && t[2] == k[2];
    LowerOfThree(t, k);
  }

  /** Every English abbreviation, printed as the listing prints it, reads back
      as its own month. */
  lemma MonthOfAbbreviationOfAbbreviation(m: int)
    requires 1 <= m <= 12
    ensures MonthOfAbbreviation(MonthAbbreviations[m - 1]) == Some(m)
  {
    LowerOfAbbreviation(m - 1);
    MonthOfKeyOfKey(m - 1);
  }

  /** The label text after the prefix: month, day, comma, year. */
  function LabelBody(d: CalendarDate): string
  {
    MonthAbbreviations[d.month - 1] + " " + DayText(d.day) + ", " + Pad4(d.year)
  }

  lemma LabelBodyHasNoCapitalP(d: CalendarDate)
    ensures 'P' !in LabelBody(d)
  {
    var abbr := MonthAbbreviations[d.month - 1];
    var tail := DayText(d.day) + ", " + Pad4(d.year);
    assert LabelBody(d) == abbr + " " + tail;
    assert forall i :: 0 <= i < |abbr| ==> abbr[i] != 'P';
    assert forall i :: 0 <= i < |tail| ==> tail[i] != 'P';
  }

  /** Stripping and dropping the prefix leave exactly the body. */
  lemma CleanedLabel(d: CalendarDate)
    ensures ReplaceAll(Strip(FormatLabel(d)), LabelPrefix, "") == LabelBody(d)
  {
    var body := LabelBody(d);
    var shown := FormatLabel(d);
    assert shown == LabelPrefix + body;
    assert shown[|shown| - 1] == Pad4(d.year)[3];
    assert Strip(shown) == shown;
    assert shown[..|LabelPrefix|] == LabelPrefix;
    assert shown[|LabelPrefix|..] == body;
    LabelBodyHasNoCapitalP(d);
    NotOccursWithoutFirstChar(body, LabelPrefix);
  }

  /** `%b %d, %Y` reads a month, a day and a year joined as the format joins them. */
  lemma ParseMonDayYearOfParts(abbr: string, day: string, year: string)
    requires |abbr| == 3 && MonthOfAbbreviation(abbr).Some?
    requires ',' !in day && ParseDayToken(day).Some? && ParseYearToken(year).Some?
    ensures ParseMonDayYear(abbr + " " + day + ", " + year)
      == MakeDate(ParseYearToken(year).value, MonthOfAbbreviation(abbr).value, ParseDayToken(day).value)
  {
    var t := abbr + " " + day + ", " + year;
    assert t[..3] == abbr && t[3] == ' ';
    assert t[4..] == day + [','] + (" " + year);
    SplitAtFirst(day, ',', " " + year);
    assert (" " + year)[1..] == year;
  }

  /** The day as the listing prints it, without padding, reads back. */
  lemma ParseDayTokenOfDayText(n: int)
    requires 1 <= n <= 31
    ensures ParseDayToken(DayText(n)) == Some(n)
    ensures ',' !in DayText(n)
  {
    var day := DayText(n);
    assert forall i :: 0 <= i < |day| ==> IsDigit(day[i]);
    if n >= 10 {
      DigitsValueOfTwo(day);
    }
  }

  lemma ParseMonDayYearOfBody(d: CalendarDate)
    ensures ParseMonDayYear(LabelBody(d)) == Some(d)
  {
    MonthOfAbbreviationOfAbbreviation(d.month);
    ParseDayTokenOfDayText(d.day);
    ParseMonDayYearOfParts(MonthAbbreviations[d.month - 1], DayText(d.day), Pad4(d.year));
  }

  /** Reading a label the listing prints gives back the date it was printed from. */
  lemma ParseLabelOfFormatLabel(d: CalendarDate)
    ensures ParseLabel(FormatLabel(d)) == Some(d)
  {
    CleanedLabel(d);
    ParseMonDayYearOfBody(d);
  }

  /** The `.strip()` of the label: white space around a label does not
      change how it is read. */
  lemma ParseLabelIgnoresOuterSpace(w1: string, text: string, w2: string)
    requires AllSpace(w1) && AllSpace(w2)
    ensures ParseLabel(w1 + text + w2) == ParseLabel(text)
  {
    StripIgnoresOuterSpace(w1, text, w2);
  }

  /** A printed label with white space around it reads back as its date. */
  lemma ParseLabelOfPaddedLabel(w1: string, d: CalendarDate, w2: string)
    requires AllSpace(w1) && AllSpace(w2)
    ensures ParseLabel(w1 + FormatLabel(d) + w2) == Some(d)
  {
    ParseLabelIgnoresOuterSpace(w1, FormatLabel(d), w2);
    ParseLabelOfFormatLabel(d);
  }
}

=== FILE: dates.dfy ===
/** Calendar dates as the scrapers use them. Every `datetime` in the program is
    at midnight (it comes from `strptime` on a date-only format), so comparing
    two of them is comparing calendar dates. */
module Dates {
  import opened Wrappers

  datatype Date = Date(year: int, month: int, day: int)

  /** The Gregorian leap-year rule (section 5.7 of RFC 3339). */
  predicate IsLeapYear(y: int)
  {
    y % 4 == 0 && (y % 100 != 0 || y % 400 == 0)
  }

  function DaysInMonth(y: int, m: int): (n: int)
    requires 1 <= m <= 12
    ensures 28 <= n <= 31
    ensures n == 29 <==> m == 2 && IsLeapYear(y)
    ensures n == 28 <==> m == 2 && !IsLeapYear(y)
  {
    if m == 2 then (if IsLeapYear(y) then 29 else 28)
    else if m == 4 || m == 6 || m == 9 || m == 11 then 30
    else 31
  }

  /** A date Python's `datetime` can represent: years 1 to 9999 of the
      proleptic Gregorian calendar, a real month, a day that month has. */
  predicate Valid(d: Date)
  {
    1 <= d.year <= 9999 && 1 <= d.month <= 12 && 1 <= d.day <= DaysInMonth(d.year, d.month)
  }

  type CalendarDate = d: Date | Valid(d) witness Date(1, 1, 1)

  /** `a < b` on `datetime` values at midnight: field by field, year first. */
  predicate Before(a: Date, b: Date)
  {
    a.year < b.year || (a.year == b.year && (a.month < b.month || (a.month == b.month && a.day < b.day)))
  }

  predicate NotAfter(a: Date, b: Date)
  {
    !Before(b, a)
  }

  /** `start_date <= d <= end_date`, the scrapers' window test. */
  predicate InWindow(d: Date, start: Date, end: Date)
  {
    NotAfter(start, d) && NotAfter(d, end)
  }

  /** The date read as the number `YYYYMMDD`. */
  function Key(d: Date): int
  {
    d.year * 10000 + d.month * 100 + d.day
  }

  /** The field-by-field order is the numeric order of `YYYYMMDD`, which is
      why the basic ISO 8601 form used in file names sorts chronologically. */
  lemma BeforeIsKeyOrder(a: CalendarDate, b: CalendarDate)
    ensures Before(a, b) <==> Key(a) < Key(b)
  {
    var ra := a.month * 100 + a.day;
    var rb := b.month * 100 + b.day;
    assert 101 <= ra <= 1231 && 101 <= rb <= 1231;
    if a.year < b.year {
      assert a.year * 10000 + 10000 <= b.year * 10000;
    } else if a.year > b.year {
      assert b.year * 10000 + 10000 <= a.year * 10000;
    }
  }

  /** `Before` is a strict total order on dates. */
  lemma BeforeIsStrictTotalOrder(a: Date, b: Date, c: Date)
    ensures !Before(a, a)
    ensures Before(a, b) && Before(b, c) ==> Before(a, c)
    ensures a == b || Before(a, b) || Before(b, a)
  {
  }

  /** `NotAfter` chains: a bound of a bound is a bound. */
  lemma NotAfterTransitive(a: Date, b: Date, c: Date)
    requires NotAfter(a, b) && NotAfter(b, c)
    ensures NotAfter(a, c)
  {
  }

  /** The running-minimum update of both scrapers: `d` replaces `e` when `e`
      is unset or `d` is strictly earlier. */
  function Earlier(e: Option<CalendarDate>, d: CalendarDate): (r: Option<CalendarDate>)
    ensures r.Some?
    ensures r.value == d || (e.Some? && r.value == e.value)
    ensures NotAfter(r.value, d)
    ensures e.Some? ==> NotAfter(r.value, e.value)
  {
    if e.None? || Before(d, e.value) then Some(d) else e
  }

  /** The earlier of two optional dates; an absent date is no bound. */
  function MinOf(a: Option<CalendarDate>, b: Option<CalendarDate>): (r: Option<CalendarDate>)
    ensures r.None? <==> a.None? && b.None?
    ensures r.Some? ==> r == a || r == b
    ensures r.Some? && a.Some? ==> NotAfter(r.value, a.value)
    ensures r.Some? && b.Some? ==> NotAfter(r.value, b.value)
  {
    if a.None? then b
    else if b.None? then a
    else if Before(b.value, a.value) then b
    else a
  }

  /** The running-minimum update is the minimum with the new date. */
  lemma EarlierIsMinOf(e: Option<CalendarDate>, d: CalendarDate)
    ensures Earlier(e, d) == MinOf(e, Some(d))
  {
  }

  /** Minimum does not depend on grouping or on order, so the page minimum can
      be folded left to right, as the scrapers' loop does, or from the right. */
  lemma MinOfAssociatesAndCommutes(a: Option<CalendarDate>, b: Option<CalendarDate>, c: Option<CalendarDate>)
    ensures MinOf(MinOf(a, b), c) == MinOf(a, MinOf(b, c))
    ensures MinOf(a, b) == MinOf(b, a)
  {
  }
}

=== FILE: download.dfy ===
/** The two `download_okx_news` functions around the crawl: where the JSON
    file goes, and what the output folder holds afterwards. The folder is a
    map from file path to the JSON array of records the file holds;
    creating the folder and the JSON text itself are not modelled. */
module Download {
  import opened Wrappers
  import opened Text
  import opened Dates
  import opened DateText
  import opened Listing
  import opened BatchWriter
  import opened Crawl

  type FileSystem = map<string, seq<Record>>

  /** `os.path.join(folder, name)` for a relative `name`: a separator is put
      between the two unless `folder` is empty or already ends with one. */
  function JoinPath(folder: string, name: string): (p: string)
    ensures EndsWith(p, name) && StartsWith(p, folder)
    ensures |p| == |folder| + |name| || p == folder + "/" + name
    ensures |folder| == 0 || folder[|folder| - 1] == '/' ==> p == folder + name
    ensures |folder| > 0 && folder[|folder| - 1] != '/' ==> p == folder + "/" + name
  {
    if |folder| == 0 || folder[|folder| - 1] == '/' then folder + name else folder + "/" + name
  }

  /** `okx_news_{start:%Y%m%d}_{end:%Y%m%d}.json`: 31 characters between
      the fixed prefix and extension. */
  function OutputName(start: CalendarDate, end: CalendarDate): (n: string)
    ensures |n| == 31 && StartsWith(n, "okx_news_") && EndsWith(n, ".json")
  {
    "okx_news_" + FormatBasic(start) + "_" + FormatBasic(end) + ".json"
  }

  /** The output file of a window, inside `folder`. */
  function OutputPath(folder: string, start: CalendarDate, end: CalendarDate): (p: string)
    ensures StartsWith(p, folder) && EndsWith(p, OutputName(start, end))
    ensures |p| == |folder| + 31 || |p| == |folder| + 32
  {
    JoinPath(folder, OutputName(start, end))
  }

  /** The file name gives back both dates of the window it was made for. */
  lemma OutputNameDecodes(start: CalendarDate, end: CalendarDate)
    ensures var n := OutputName(start, end);
      |n| == 31 && n[9..17] == FormatBasic(start) && n[18..26] == FormatBasic(end)
  {
  }

  /** Within one folder, distinct windows never share an output file. */
  lemma OutputPathInjective(folder: string, s1: CalendarDate, e1: CalendarDate, s2: CalendarDate, e2: CalendarDate)
    ensures OutputPath(folder, s1, e1) == OutputPath(folder, s2, e2) <==> s1 == s2 && e1 == e2
  {
    var n1 := OutputName(s1, e1);
    var n2 := OutputName(s2, e2);
    OutputNameDecodes(s1, e1);
    OutputNameDecodes(s2, e2);
    if OutputPath(folder, s1, e1) == OutputPath(folder, s2, e2) {
      var p := OutputPath(folder, s1, e1);
      assert p[|p| - 31..] == n1 && p[|p| - 31..] == n2;
      assert n1[9..17] == n2[9..17] && n1[18..26] == n2[18..26];
      FormatBasicIsFaithful(s1, s2);
      FormatBasicIsFaithful(e1, e2);
    }
  }

  /** How a download ends: the path it returns with the folder it leaves,
      the exception it raises with the folder it leaves, or never, within
      the fuel it was given. */
  datatype Download = Saved(path: string, fs: FileSystem) | Raised(error: CrawlError, fs: FileSystem) | Diverged

  /** The folder holds `f` at `path`, or nothing there when `f` is absent. */
  function Store(fs: FileSystem, path: string, f: File): (r: FileSystem)
    ensures forall p :: p != path ==> (p in r <==> p in fs) && (p in fs ==> r[p] == fs[p])
    ensures f.Some? ==> path in r && r[path] == f.value
    ensures f.None? ==> r == fs
  {
    if f.None? then fs else fs[path := f.value]
  }

  /** The file at `path` as the folder holds it. */
  function FileAt(fs: FileSystem, path: string): File
  {
    if path in fs then Some(fs[path]) else None
  }

  /** Reading back the path just stored gives what was stored there. */
  lemma FileAtStore(fs: FileSystem, path: string, f: File)
    ensures FileAt(Store(fs, path, f), path) == if f.None? then FileAt(fs, path) else f
  {
  }

  // ---------------------------------------------------------------------------
  // okx-news-scraper/scraper.py: crawl first, then write the file once

  /** The flat crawl, after which the whole array is written in mode `'w'`.
      Only a finished crawl touches the folder: it holds the crawl's records
      at the output path, replacing whatever was there, and every other file
      is as it was. A raising crawl leaves the folder untouched. */
  function DownloadOnce(src: ListingSource, start: CalendarDate, end: CalendarDate,
                        folder: string, fs: FileSystem, fuel: nat): (r: Download)
    ensures r.Saved? <==> CrawlSource(Flat, src, start, end, fuel).Done?
    ensures r.Diverged? <==> CrawlSource(Flat, src, start, end, fuel).OutOfFuel?
    ensures r.Raised? ==> r.fs == fs && r.error == CrawlSource(Flat, src, start, end, fuel).error
    ensures r.Saved? ==>
      && r.path == OutputPath(folder, start, end)
      && r.path in r.fs && r.fs[r.path] == CrawlSource(Flat, src, start, end, fuel).state.out
      && AllWithin(r.fs[r.path], start, end)
      && forall p :: p != r.path ==> (p in r.fs <==> p in fs) && (p in fs ==> r.fs[p] == fs[p])
  {
    CrawlRecordsInWindow(Flat, src, start, end, fuel);
    var path := OutputPath(folder, start, end);
    match CrawlSource(Flat, src, start, end, fuel)
    case Done(s) => Saved(path, Store(fs, path, Some(s.out)))
    case Aborted(e, _) => Raised(e, fs)
    case OutOfFuel(_) => Diverged
  }

  /** Running the download again on the same listing changes nothing more:
      the file is overwritten with the same array. */
  lemma DownloadOnceIdempotent(src: ListingSource, start: CalendarDate, end: CalendarDate,
                               folder: string, fs: FileSystem, fuel: nat)
    requires DownloadOnce(src, start, end, folder, fs, fuel).Saved?
    ensures var first := DownloadOnce(src, start, end, folder, fs, fuel);
      DownloadOnce(src, start, end, folder, first.fs, fuel) == first
  {
  }

  /** On a finite next-chain from the root, the download does not run forever. */
  lemma DownloadOnceTerminates(src: ListingSource, start: CalendarDate, end: CalendarDate, chain: seq<string>,
                               folder: string, fs: FileSystem, fuel: nat)
    requires IsNextChain(src, chain) && chain[0] == Root && fuel >= |chain|
    ensures !DownloadOnce(src, start, end, folder, fs, fuel).Diverged?
  {
    FlatCrawlTerminates(src, start, end, chain, fuel);
  }

  // ---------------------------------------------------------------------------
  // okx_news_scraper/scraper.py: batches written while crawling

  /** The batched crawl, writing through `Flush` into whatever the output
      path already holds. It finishes, raises or runs on exactly when the
      crawl does, and it touches no file but its output file. */
  function DownloadBatched(v: Variant, src: ListingSource, start: CalendarDate, end: CalendarDate,
                           folder: string, fs: FileSystem, fuel: nat): (r: Download)
    ensures r.Saved? <==> CrawlSource(v, src, start, end, fuel).Done?
    ensures r.Diverged? <==> CrawlSource(v, src, start, end, fuel).OutOfFuel?
    ensures r.Saved? ==> r.path == OutputPath(folder, start, end)
    ensures !r.Diverged? ==> forall p :: p != OutputPath(folder, start, end) ==>
      (p in r.fs <==> p in fs) && (p in fs ==> r.fs[p] == fs[p])
  {
    var path := OutputPath(folder, start, end);
    var file0 := FileAt(fs, path);
    var b := RunBatched(v, RepliesOf(src, start, end), start, Initial(), Writer(file0, []), fuel);
    RunBatchedTracksRun(v, RepliesOf(src, start, end), start, Initial(), Writer(file0, []), file0, fuel);
    match b.outcome
    case Done(_) => Saved(path, Store(fs, path, Finish(b.writer)))
    case Aborted(e, _) => Raised(e, Store(fs, path, b.writer.file))
    case OutOfFuel(_) => Diverged
  }

  /** A finished batched download leaves the output file's old array
      followed by every record found, and creates no file when there was
      none and nothing was found. */
  lemma DownloadBatchedSaves(v: Variant, src: ListingSource, start: CalendarDate, end: CalendarDate,
                             folder: string, fs: FileSystem, fuel: nat)
    requires DownloadBatched(v, src, start, end, folder, fs, fuel).Saved?
    ensures var r := DownloadBatched(v, src, start, end, folder, fs, fuel);
      FileAt(r.fs, r.path) == Append(FileAt(fs, r.path), CrawlSource(v, src, start, end, fuel).state.out)
  {
    var path := OutputPath(folder, start, end);
    var file0 := FileAt(fs, path);
    var rs := RepliesOf(src, start, end);
    var b := RunBatched(v, rs, start, Initial(), Writer(file0, []), fuel);
    RunBatchedTracksRun(v, rs, start, Initial(), Writer(file0, []), file0, fuel);
    FinishOfTracks(b.writer, file0, b.outcome.state.out);
  }

  /** A raising batched download raises the crawl's exception and leaves the
      output file's old array followed by a prefix of the records found
      before the failing page: the batches already flushed. */
  lemma DownloadBatchedRaises(v: Variant, src: ListingSource, start: CalendarDate, end: CalendarDate,
                              folder: string, fs: FileSystem, fuel: nat)
    requires DownloadBatched(v, src, start, end, folder, fs, fuel).Raised?
    ensures var r := DownloadBatched(v, src, start, end, folder, fs, fuel);
      var path := OutputPath(folder, start, end);
      var out := CrawlSource(v, src, start, end, fuel).state.out;
      var c0 := Contents(FileAt(fs, path));
      var c := Contents(FileAt(r.fs, path));
      && r.error == CrawlSource(v, src, start, end, fuel).error
      && (FileAt(r.fs, path).None? ==> FileAt(fs, path).None?)
      && |c0| <= |c| <= |c0| + |out| && c == c0 + out[..|c| - |c0|]
  {
    var path := OutputPath(folder, start, end);
    var file0 := FileAt(fs, path);
    var rs := RepliesOf(src, start, end);
    var b := RunBatched(v, rs, start, Initial(), Writer(file0, []), fuel);
    RunBatchedTracksRun(v, rs, start, Initial(), Writer(file0, []), file0, fuel);
    var o := Run(v, rs, start, Initial(), fuel);
    assert CrawlSource(v, src, start, end, fuel) == o == b.outcome;
    assert o.Aborted?;
    var r := DownloadBatched(v, src, start, end, folder, fs, fuel);
    assert r == Raised(o.error, Store(fs, path, b.writer.file));
    StoredPrefix(fs, path, b.writer, o.state.out);
  }

  /** Storing a tracked writer's file leaves the old array followed by a
      prefix of the records found. */
  lemma StoredPrefix(fs: FileSystem, path: string, w: Writer, out: seq<Record>)
    requires Tracks(w, FileAt(fs, path), out)
    ensures var f := FileAt(Store(fs, path, w.file), path);
      var c0 := Contents(FileAt(fs, path));
      var c := Contents(f);
      && (f.None? ==> FileAt(fs, path).None?)
      && |c0| <= |c| <= |c0| + |out| && c == c0 + out[..|c| - |c0|]
  {
    FileAtStore(fs, path, w.file);
    TrackedFileIsPrefix(w, FileAt(fs, path), out);
  }

  /** Running the batched download again on the same listing appends the
      same records a second time: its file is not idempotent. */
  lemma DownloadBatchedRerunAppends(v: Variant, src: ListingSource, start: CalendarDate, end: CalendarDate,
                                    folder: string, fs: FileSystem, fuel: nat)
    requires DownloadBatched(v, src, start, end, folder, fs, fuel).Saved?
    ensures var first := DownloadBatched(v, src, start, end, folder, fs, fuel);
      var second := DownloadBatched(v, src, start, end, folder, first.fs, fuel);
      var out := CrawlSource(v, src, start, end, fuel).state.out;
      second.Saved? && FileAt(second.fs, first.path) == Append(FileAt(fs, first.path), out + out)
  {
    var first := DownloadBatched(v, src, start, end, folder, fs, fuel);
    var out := CrawlSource(v, src, start, end, fuel).state.out;
    DownloadBatchedSaves(v, src, start, end, folder, fs, fuel);
    DownloadBatchedSaves(v, src, start, end, folder, first.fs, fuel);
    AppendTwice(FileAt(fs, first.path), out, out);
  }

  /** With the flat loop and a finite next-chain from the root, the batched
      download does not run forever either. */
  lemma DownloadBatchedFlatTerminates(src: ListingSource, start: CalendarDate, end: CalendarDate, chain: seq<string>,
                                      folder: string, fs: FileSystem, fuel: nat)
    requires IsNextChain(src, chain) && chain[0] == Root && fuel >= |chain|
    ensures !DownloadBatched(Flat, src, start, end, folder, fs, fuel).Diverged?
  {
    FlatCrawlTerminates(src, start, end, chain, fuel);
  }

  /** A download into an empty folder writes exactly the records a crawl
      finds, whether in one write or in batches. */
  lemma BatchedMatchesOnceOnFreshFolder(src: ListingSource, start: CalendarDate, end: CalendarDate,
                                        folder: string, fs: FileSystem, fuel: nat)
    requires OutputPath(folder, start, end) !in fs
    requires DownloadOnce(src, start, end, folder, fs, fuel).Saved?
    requires |CrawlSource(Flat, src, start, end, fuel).state.out| > 0
    ensures DownloadBatched(Flat, src, start, end, folder, fs, fuel) == DownloadOnce(src, start, end, folder, fs, fuel)
  {
    var path := OutputPath(folder, start, end);
    var rs := RepliesOf(src, start, end);
    var bo := RunBatched(Flat, rs, start, Initial(), Writer(None, []), fuel);
    RunBatchedTracksRun(Flat, rs, start, Initial(), Writer(None, []), None, fuel);
    var out := bo.outcome.state.out;
    FinishOfTracks(bo.writer, None, out);
    assert Finish(bo.writer) == Some(out);
    assert FileAt(fs, path) == None;
    assert DownloadBatched(Flat, src, start, end, folder, fs, fuel) == Saved(path, Store(fs, path, Some(out)));
  }
}

=== FILE: listing.dfy ===
/** One listing page and what `scrape_page_articles` and `get_next_page_url`
    make of it. The HTML is replaced by plain data: an item carries what the
    CSS selectors would find (`None` where an element or attribute is missing)
    and the outcome of fetching its detail page. */
module Listing {
  import opened Wrappers
  import opened Text
  import opened Dates
  import opened DateText

  /** The site both scrapers prefix to every relative link. */
  const Origin: string := "https://www.okx.com"

  /** The content region of a detail page: its text with blocks joined by
      newlines, and its serialised markup. Both are opaque here. */
  datatype Body = Body(text: string, html: string)

  /** One `li` article item of the listing. `dateLabel` and `title` are the
      `.text` of the date span and the title div, `href` the article link's
      attribute. `detail` is `None` when the detail page answers with a status
      other than 200 or has no content region. */
  datatype Item = Item(
    dateLabel: Option<string>,
    title: Option<string>,
    href: Option<string>,
    detail: Option<Body>)

  /** The pagination "next" anchor: missing, present without `href`, or present with one. */
  datatype NextLink = NoNextLink | NextWithoutHref | NextWithHref(href: string)

  datatype Page = Page(items: seq<Item>, next: NextLink)

  /** One entry of the output JSON array. */
  datatype Record = Record(date: string, title: string, link: string, contentText: string, contentHtml: string)

  /** Why a crawl stops with an exception. */
  datatype CrawlError =
    | ListingUnavailable(url: string)    // a listing response other than 200
    | DateLabelMissing                   // AttributeError on the missing date span
    | DateLabelUnparseable(text: string) // ValueError from strptime
    | TitleMissing                       // AttributeError on the missing title div
    | LinkMissing                        // TypeError or KeyError on the missing link

  datatype PageScrape = PageScrape(records: seq<Record>, earliest: Option<CalendarDate>)

  /** `get_next_page_url`: the absolute URL of the next page, if the page links one. */
  function NextPageUrl(p: Page): (r: Option<string>)
    ensures r.Some? <==> p.next.NextWithHref?
    ensures r.Some? ==> StartsWith(r.value, Origin) && r.value[|Origin|..] == p.next.href
    ensures r.Some? ==> |r.value| > 0
  {
    match p.next
    case NextWithHref(h) => Some(Origin + h)
    case _ => None
  }

  /** Reading an item's date: a missing span or an unreadable label raises. */
  function ItemDate(it: Item): (r: Result<CalendarDate, CrawlError>)
    ensures r.Success? <==> it.dateLabel.Some? && ParseLabel(it.dateLabel.value).Some?
    ensures r.Success? ==> r.value == ParseLabel(it.dateLabel.value).value
  {
    match it.dateLabel
    case None => Failure(DateLabelMissing)
    case Some(t) =>
      match ParseLabel(t)
      case None => Failure(DateLabelUnparseable(t))
      case Some(d) => Success(d)
  }

  /** The record an in-window item dated `d` yields: title and link are read
      (and raise when missing), then the detail outcome decides whether a
      record is made. */
  function ItemRecord(it: Item, d: CalendarDate): (r: Result<Option<Record>, CrawlError>)
    ensures r.Success? <==> it.title.Some? && it.href.Some?
    ensures r.Success? ==> (r.value.Some? <==> it.detail.Some?)
    ensures r.Success? && r.value.Some? ==>
      && r.value.value.date == FormatIso(d)
      && r.value.value.title == Strip(it.title.value)
      && r.value.value.link == Origin + it.href.value
      && r.value.value.contentText == it.detail.value.text
      && r.value.value.contentHtml == it.detail.value.html
  {
    match it.title
    case None => Failure(TitleMissing)
    case Some(t) =>
      match it.href
      case None => Failure(LinkMissing)
      case Some(h) =>
        match it.detail
        case None => Success(None)
        case Some(b) => Success(Some(Record(FormatIso(d), Strip(t), Origin + h, b.text, b.html)))
  }

  function OptionToSeq<T>(o: Option<T>): (s: seq<T>)
    ensures |s| <= 1 && (o.Some? <==> |s| == 1) && (o.Some? ==> s[0] == o.value)
  {
    match o
    case None => []
    case Some(x) => [x]
  }

  /** The body of the `for article in articles` loop of `scrape_page_articles`,
      run from the item `items[0]` on with the loop's two accumulators. A
      minimum once set is never raised by the items that follow; what the
      loop computes is stated by `ScrapeLoopMeaning`. */
  function ScrapeLoop(items: seq<Item>, start: CalendarDate, end: CalendarDate,
                      news: seq<Record>, earliest: Option<CalendarDate>): (r: Result<PageScrape, CrawlError>)
    ensures r.Success? && earliest.Some? ==> r.value.earliest.Some? && NotAfter(r.value.earliest.value, earliest.value)
    decreases |items|
  {
    if |items| == 0 then Success(PageScrape(news, earliest))
    else
      match ItemDate(items[0])
      case Failure(e) => Failure(e)
      case Success(d) =>
        var earliest' := Earlier(earliest, d);
        if InWindow(d, start, end) then
          match ItemRecord(items[0], d)
          case Failure(e) => Failure(e)
          case Success(r) => ScrapeLoop(items[1..], start, end, news + OptionToSeq(r), earliest')
        else ScrapeLoop(items[1..], start, end, news, earliest')
  }

  // ---------------------------------------------------------------------------
  // Reference definitions: what a page yields, stated item by item.

  /** An item the loop gets past without raising. */
  predicate ItemReadable(it: Item, start: CalendarDate, end: CalendarDate)
  {
    ItemDate(it).Success?
    && (InWindow(ItemDate(it).value, start, end) ==> it.title.Some? && it.href.Some?)
  }

  predicate PageReadable(items: seq<Item>, start: CalendarDate, end: CalendarDate)
  {
    forall i :: 0 <= i < |items| ==> ItemReadable(items[i], start, end)
  }

  /** The records of a readable page: one per in-window item whose detail
      page gave content, in item order. */
  function Harvest(items: seq<Item>, start: CalendarDate, end: CalendarDate): seq<Record>
    requires PageReadable(items, start, end)
  {
    if |items| == 0 then []
    else
      var it := items[0];
      var d := ItemDate(it).value;
      var rest := Harvest(items[1..], start, end);
      if InWindow(d, start, end) && it.detail.Some? then
        [ItemRecord(it, d).value.value] + rest
      else rest
  }

  /** The least date of a readable page, `None` for a page without items. */
  function PageMinimum(items: seq<Item>, start: CalendarDate, end: CalendarDate): Option<CalendarDate>
    requires PageReadable(items, start, end)
  {
    if |items| == 0 then None
    else MinOf(Some(ItemDate(items[0]).value), PageMinimum(items[1..], start, end))
  }

  /** `scrape_page_articles(soup, start_date, end_date)`. */
  function ScrapePage(p: Page, start: CalendarDate, end: CalendarDate): (r: Result<PageScrape, CrawlError>)
    ensures r.Success? <==> PageReadable(p.items, start, end)
    ensures r.Success? ==> r.value.records == Harvest(p.items, start, end)
    ensures r.Success? ==> r.value.earliest == PageMinimum(p.items, start, end)
  {
    ScrapeLoopMeaning(p.items, start, end, [], None);
    ScrapeLoop(p.items, start, end, [], None)
  }

  /** A non-empty page is readable exactly when its first item and the rest are. */
  lemma ReadableCons(items: seq<Item>, start: CalendarDate, end: CalendarDate)
    requires |items| > 0
    ensures PageReadable(items, start, end) <==>
      ItemReadable(items[0], start, end) && PageReadable(items[1..], start, end)
  {
    AllOfCons(it => ItemReadable(it, start, end), items);
  }

  /** A property holds of every element of a non-empty sequence exactly when
      it holds of the first and of every later one. */
  lemma AllOfCons<T>(p: T -> bool, xs: seq<T>)
    requires |xs| > 0
    ensures (forall i :: 0 <= i < |xs| ==> p(xs[i])) <==> p(xs[0]) && forall i :: 0 <= i < |xs[1..]| ==> p(xs[1..][i])
  {
    if p(xs[0]) && forall i :: 0 <= i < |xs[1..]| ==> p(xs[1..][i]) {
      forall i | 0 <= i < |xs| ensures p(xs[i]) {
        if i > 0 { assert xs[i] == xs[1..][i - 1]; }
      }
    }
  }

  /** The harvest and minimum of a readable page, split at its first item. */
  lemma HarvestCons(items: seq<Item>, start: CalendarDate, end: CalendarDate)
    requires |items| > 0 && PageReadable(items, start, end)
    ensures PageReadable(items[1..], start, end)
    ensures var d := ItemDate(items[0]).value;
      && (InWindow(d, start, end) ==>
            Harvest(items, start, end) == OptionToSeq(ItemRecord(items[0], d).value) + Harvest(items[1..], start, end))
      && (!InWindow(d, start, end) ==> Harvest(items, start, end) == Harvest(items[1..], start, end))
      && PageMinimum(items, start, end) == MinOf(Some(d), PageMinimum(items[1..], start, end))
  {
    ReadableCons(items, start, end);
  }

  /** The loop with accumulators computes the reference definitions: it
      raises exactly when some item is unreadable, appends the page's harvest
      to `news`, and folds the page minimum into `earliest`. */
  lemma {:induction false} ScrapeLoopMeaning(items: seq<Item>, start: CalendarDate, end: CalendarDate,
                                             news: seq<Record>, earliest: Option<CalendarDate>)
    ensures ScrapeLoop(items, start, end, news, earliest).Success? <==> PageReadable(items, start, end)
    ensures PageReadable(items, start, end) ==>
      ScrapeLoop(items, start, end, news, earliest).value
        == PageScrape(news + Harvest(items, start, end), MinOf(earliest, PageMinimum(items, start, end)))
    decreases |items|
  {
    if |items| == 0 {
      assert news + [] == news;
    } else {
      var it := items[0];
      ReadableCons(items, start, end);
      match ItemDate(it)
      case Failure(e) =>
      case Success(d) =>
        var earliest' := Earlier(earliest, d);
        EarlierIsMinOf(earliest, d);
        if InWindow(d, start, end) {
          match ItemRecord(it, d)
          case Failure(e) =>
          case Success(r) =>
            var news' := news + OptionToSeq(r);
            ScrapeLoopMeaning(items[1..], start, end, news', earliest');
            if PageReadable(items, start, end) {
              HarvestCons(items, start, end);
              MinOfAssociatesAndCommutes(earliest, Some(d), PageMinimum(items[1..], start, end));
              assert news' + Harvest(items[1..], start, end)
                  == news + (OptionToSeq(r) + Harvest(items[1..], start, end));
            }
        } else {
          ScrapeLoopMeaning(items[1..], start, end, news, earliest');
          if PageReadable(items, start, end) {
            HarvestCons(items, start, end);
            MinOfAssociatesAndCommutes(earliest, Some(d), PageMinimum(items[1..], start, end));
          }
        }
    }
  }

  // ---------------------------------------------------------------------------
  // Properties of a page scrape

  lemma {:induction false} PageMinimumIsBound(items: seq<Item>, start: CalendarDate, end: CalendarDate)
    requires PageReadable(items, start, end)
    ensures PageMinimum(items, start, end).None? <==> |items| == 0
    ensures PageMinimum(items, start, end).Some? ==>
      forall i :: 0 <= i < |items| ==> NotAfter(PageMinimum(items, start, end).value, ItemDate(items[i]).value)
    decreases |items|
  {
    if |items| > 0 {
      ReadableCons(items, start, end);
      PageMinimumIsBound(items[1..], start, end);
      var rest := PageMinimum(items[1..], start, end);
      var m := PageMinimum(items, start, end).value;
      forall i | 0 <= i < |items| ensures NotAfter(m, ItemDate(items[i]).value) {
        if i > 0 {
          assert items[i] == items[1..][i - 1];
          NotAfterTransitive(m, rest.value, ItemDate(items[i]).value);
        }
      }
    }
  }

  lemma {:induction false} PageMinimumIsAttained(items: seq<Item>, start: CalendarDate, end: CalendarDate)
    requires PageReadable(items, start, end)
    ensures PageMinimum(items, start, end).Some? ==>
      exists i :: 0 <= i < |items| && ItemDate(items[i]).value == PageMinimum(items, start, end).value
    decreases |items|
  {
    if |items| > 0 {
      ReadableCons(items, start, end);
      PageMinimumIsAttained(items[1..], start, end);
      var m := PageMinimum(items, start, end).value;
      if m == ItemDate(items[0]).value {
        assert ItemDate(items[0]).value == m;
      } else {
        var j :| 0 <= j < |items[1..]| && ItemDate(items[1..][j]).value == m;
        assert items[1..][j] == items[j + 1];
      }
    }
  }

  /** The page minimum is a lower bound of every item's date and is one of
      them; it is absent exactly when the page has no items. Out-of-window
      items count. */
  lemma PageMinimumIsLeast(items: seq<Item>, start: CalendarDate, end: CalendarDate)
    requires PageReadable(items, start, end)
    ensures PageMinimum(items, start, end).None? <==> |items| == 0
    ensures PageMinimum(items, start, end).Some? ==>
      (forall i :: 0 <= i < |items| ==> NotAfter(PageMinimum(items, start, end).value, ItemDate(items[i]).value))
      && (exists i :: 0 <= i < |items| && ItemDate(items[i]).value == PageMinimum(items, start, end).value)
  {
    PageMinimumIsBound(items, start, end);
    PageMinimumIsAttained(items, start, end);
  }

  /** A record whose date string reads back as a date inside the window. */
  predicate DatedWithin(r: Record, start: CalendarDate, end: CalendarDate)
  {
    var p := ParseIso(r.date);
    p.Some? && InWindow(p.value, start, end)
  }

  /** The record of an in-window item is dated within the window. */
  lemma RecordDatedWithin(it: Item, d: CalendarDate, start: CalendarDate, end: CalendarDate)
    requires InWindow(d, start, end)
    requires ItemRecord(it, d).Success? && ItemRecord(it, d).value.Some?
    ensures DatedWithin(ItemRecord(it, d).value.value, start, end)
  {
    ParseIsoOfFormatIso(d);
  }

  /** A property of every element of two sequences holds of every element
      of their concatenation. */
  lemma AppendAll<T>(p: T -> bool, a: seq<T>, b: seq<T>)
    requires forall k :: 0 <= k < |a| ==> p(a[k])
    requires forall k :: 0 <= k < |b| ==> p(b[k])
    ensures forall k :: 0 <= k < |a + b| ==> p((a + b)[k])
  {
    forall k | 0 <= k < |a + b| ensures p((a + b)[k]) {
      if k >= |a| { assert (a + b)[k] == b[k - |a|]; }
    }
  }

  /** The same for a sequence with one more element in front. */
  lemma ConsAll<T>(p: T -> bool, x: T, t: seq<T>)
    requires p(x)
    requires forall k :: 0 <= k < |t| ==> p(t[k])
    ensures forall k :: 0 <= k < |[x] + t| ==> p(([x] + t)[k])
  {
    forall k | 0 <= k < |[x] + t| ensures p(([x] + t)[k]) {
      if k > 0 { assert ([x] + t)[k] == t[k - 1]; }
    }
  }

  /** Every record lies in the window: its date string reads back, through
      `validate_date_format`'s parser, as a date between `start` and `end`. */
  lemma {:induction false} HarvestInWindow(items: seq<Item>, start: CalendarDate, end: CalendarDate)
    requires PageReadable(items, start, end)
    ensures forall k :: 0 <= k < |Harvest(items, start, end)| ==> DatedWithin(Harvest(items, start, end)[k], start, end)
    decreases |items|
  {
    if |items| > 0 {
      ReadableCons(items, start, end);
      HarvestInWindow(items[1..], start, end);
      var it := items[0];
      var d := ItemDate(it).value;
      var t := Harvest(items[1..], start, end);
      if InWindow(d, start, end) && it.detail.Some? {
        var rec := ItemRecord(it, d).value.value;
        assert Harvest(items, start, end) == [rec] + t;
        RecordDatedWithin(it, d, start, end);
        ConsAll(r => DatedWithin(r, start, end), rec, t);
      } else {
        assert Harvest(items, start, end) == t;
      }
    }
  }

  /** At most one record per item. */
  lemma {:induction false} HarvestAtMostOnePerItem(items: seq<Item>, start: CalendarDate, end: CalendarDate)
    requires PageReadable(items, start, end)
    ensures |Harvest(items, start, end)| <= |items|
    decreases |items|
  {
    if |items| > 0 {
      ReadableCons(items, start, end);
      HarvestAtMostOnePerItem(items[1..], start, end);
    }
  }

  /** An in-window item whose detail page failed (a status other than 200,
      or no content region) adds no record and raises nothing. */
  lemma DetailFailureDropsItem(it: Item, rest: seq<Item>, next: NextLink, start: CalendarDate, end: CalendarDate)
    requires ItemReadable(it, start, end) && it.detail.None?
    requires PageReadable(rest, start, end)
    ensures ScrapePage(Page([it] + rest, next), start, end).Success?
    ensures ScrapePage(Page([it] + rest, next), start, end).value.records == Harvest(rest, start, end)
  {
    var items := [it] + rest;
    assert items[0] == it && items[1..] == rest;
    forall i | 0 <= i < |items| ensures ItemReadable(items[i], start, end) {
      if i > 0 { assert items[i] == rest[i - 1]; }
    }
  }

  /** Title and link are only read for in-window items: an out-of-window item
      without them scrapes like the page without it, apart from its date. */
  lemma OutOfWindowItemNeedsOnlyDate(it: Item, rest: seq<Item>, start: CalendarDate, end: CalendarDate)
    requires ItemDate(it).Success? && !InWindow(ItemDate(it).value, start, end)
    ensures PageReadable([it] + rest, start, end) <==> PageReadable(rest, start, end)
    ensures PageReadable(rest, start, end) ==> Harvest([it] + rest, start, end) == Harvest(rest, start, end)
  {
    var items := [it] + rest;
    assert items[0] == it && items[1..] == rest;
    if PageReadable(rest, start, end) {
      forall i | 0 <= i < |items| ensures ItemReadable(items[i], start, end) {
        if i > 0 { assert items[i] == rest[i - 1]; }
      }
    }
    if PageReadable(items, start, end) {
      forall i | 0 <= i < |rest| ensures ItemReadable(rest[i], start, end) {
        assert rest[i] == items[i + 1];
      }
    }
  }
}

=== FILE: scenario.dfy ===
/** A three-page announcement listing on which the two loops part ways. The
    second page's least date equals the first page's, so it does not lower
    the running minimum: the flat loop moves on to the third page and ends,
    while the nested loop fetches the second page for ever. The listing is
    stated for any window, any three dates `a`, `b`, `c` of it in descending
    order and any page paths, and then instantiated with 28, 15 and
    5 October 2020. */
module Scenario {
  import opened Wrappers
  import opened Text
  import opened Dates
  import opened DateText
  import opened Listing
  import opened Crawl
  import opened Download
  import opened Cli

  /** The window, the three dates, the paths of pages 2 and 3, and the title
      every announcement carries. */
  datatype Example = Example(start: CalendarDate, end: CalendarDate,
                             a: CalendarDate, b: CalendarDate, c: CalendarDate,
                             page2: string, page3: string, title: string)

  function Url2(e: Example): string { Origin + e.page2 }
  function Url3(e: Example): string { Origin + e.page3 }

  /** The three dates lie in the window in strictly descending order, and the
      three page addresses are different: pages 2 and 3 lie below the root
      (their addresses are longer) and differ from each other. */
  predicate Wellformed(e: Example)
  {
    && InWindow(e.a, e.start, e.end) && InWindow(e.b, e.start, e.end) && InWindow(e.c, e.start, e.end)
    && Before(e.b, e.a) && Before(e.c, e.b)
    && |Root| < |Url2(e)| && |Root| < |Url3(e)| && Url2(e) != Url3(e)
  }

  /** The map from three keys to three values; the keys are compared as
      strings, so that looking one up needs only the facts that they differ. */
  function Three<T>(k1: string, k2: string, k3: string, v1: T, v2: T, v3: T): map<string, T>
  {
    Keyed({k1, k2, k3}, k1, k2, v1, v2, v3)
  }

  function Keyed<T>(keys: set<string>, k1: string, k2: string, v1: T, v2: T, v3: T): map<string, T>
  {
    map u | u in keys :: if u == k1 then v1 else if u == k2 then v2 else v3
  }

  lemma ThreeAt<T>(k1: string, k2: string, k3: string, v1: T, v2: T, v3: T)
    requires k1 != k2 && k1 != k3 && k2 != k3
    ensures forall u :: u in Three(k1, k2, k3, v1, v2, v3) <==> u in {k1, k2, k3}
    ensures Three(k1, k2, k3, v1, v2, v3)[k1] == v1
    ensures Three(k1, k2, k3, v1, v2, v3)[k2] == v2
    ensures Three(k1, k2, k3, v1, v2, v3)[k3] == v3
  {
  }

  // Small facts about sequence literals. Each holds without proof; stating
  // them as generic lemmas keeps the concrete proofs below within the
  // solver's budget, where asserting them on the example's records does not.

  lemma PrependEmpty<T>(xs: seq<T>)
    ensures [] + xs == xs
  {
  }

  lemma AppendEmpty<T>(xs: seq<T>)
    ensures xs + [] == xs
  {
  }

  lemma JoinSingletons<T>(x: T, y: T)
    ensures [x] + [y] == [x, y]
  {
  }

  lemma AppendOne<T>(x: T, y: T, z: T)
    ensures [x, y] + [z] == [x, y, z]
  {
  }

  lemma AppendOneMore<T>(x: T, y: T, z: T, w: T)
    ensures [x, y, z] + [w] == [x, y, z, w]
  {
  }

  /** An announcement as the listing shows it, with a readable detail page. */
  function Article(e: Example, d: CalendarDate, path: string): Item
  {
    Item(Some(FormatLabel(d)), Some(e.title), Some(path), Some(Body("notice", "<div>notice</div>")))
  }

  /** The record such an announcement yields. */
  function Notice(e: Example, d: CalendarDate, path: string): Record
  {
    Record(FormatIso(d), Strip(e.title), Origin + path, "notice", "<div>notice</div>")
  }

  function Page1(e: Example): Page
  {
    Page([Article(e, e.a, "/help/a"), Article(e, e.b, "/help/b")], NextWithHref(e.page2))
  }

  function Page2(e: Example): Page
  {
    Page([Article(e, e.b, "/help/c")], NextWithHref(e.page3))
  }

  function Page3(e: Example): Page
  {
    Page([Article(e, e.c, "/help/d")], NoNextLink)
  }

  /** Page 1 lists `a` and `b` and links page 2; page 2 lists `b` again and
      links page 3; page 3 lists `c` and is the last. */
  function Source(e: Example): ListingSource
  {
    Three(Root, Url2(e), Url3(e), Page1(e), Page2(e), Page3(e))
  }

  lemma ArticleReads(e: Example, d: CalendarDate, path: string)
    requires InWindow(d, e.start, e.end)
    ensures ItemDate(Article(e, d, path)) == Success(d)
    ensures ItemReadable(Article(e, d, path), e.start, e.end)
    ensures ItemRecord(Article(e, d, path), d) == Success(Some(Notice(e, d, path)))
  {
    ParseLabelOfFormatLabel(d);
  }

  /** A page is read as the reference definitions describe it. */
  lemma ReadAs(p: Page, start: CalendarDate, end: CalendarDate, recs: seq<Record>, least: Option<CalendarDate>)
    requires PageReadable(p.items, start, end)
    requires Harvest(p.items, start, end) == recs && PageMinimum(p.items, start, end) == least
    ensures Read(p, start, end) == Success(Reply(recs, least, NextPageUrl(p)))
  {
    var r := Read(p, start, end);
    assert r.Success?;
    assert r.value == Reply(recs, least, NextPageUrl(p));
  }

  /** A readable in-window item with content, on its own. */
  lemma OneItem(it: Item, d: CalendarDate, start: CalendarDate, end: CalendarDate)
    requires ItemDate(it) == Success(d) && InWindow(d, start, end)
    requires it.title.Some? && it.href.Some? && it.detail.Some?
    ensures PageReadable([it], start, end)
    ensures Harvest([it], start, end) == [ItemRecord(it, d).value.value]
    ensures PageMinimum([it], start, end) == Some(d)
  {
    assert ItemReadable([it][0], start, end);
    assert [it][1..] == [];
  }

  /** Two such items, the second one earlier. */
  lemma TwoItems(x: Item, dx: CalendarDate, y: Item, dy: CalendarDate, start: CalendarDate, end: CalendarDate)
    requires ItemDate(x) == Success(dx) && InWindow(dx, start, end)
    requires x.title.Some? && x.href.Some? && x.detail.Some?
    requires ItemDate(y) == Success(dy) && InWindow(dy, start, end)
    requires y.title.Some? && y.href.Some? && y.detail.Some?
    requires Before(dy, dx)
    ensures PageReadable([x, y], start, end)
    ensures Harvest([x, y], start, end) == [ItemRecord(x, dx).value.value, ItemRecord(y, dy).value.value]
    ensures PageMinimum([x, y], start, end) == Some(dy)
  {
    var xs := [x, y];
    OneItem(y, dy, start, end);
    assert xs[0] == x && xs[1..] == [y];
    assert ItemReadable(x, start, end);
    ReadableCons(xs, start, end);
    HarvestCons(xs, start, end);
    var rx := ItemRecord(x, dx).value.value;
    var ry := ItemRecord(y, dy).value.value;
    assert OptionToSeq(ItemRecord(x, dx).value) == [rx];
    JoinSingletons(rx, ry);
  }

  /** The first reply: the records of `a` and `b`, the minimum `b`, and page 2 next. */
  function Reply1(e: Example): Reply
  {
    Reply([Notice(e, e.a, "/help/a"), Notice(e, e.b, "/help/b")], Some(e.b), Some(Url2(e)))
  }

  /** The second reply: `b` again, and page 3 next. */
  function Reply2(e: Example): Reply
  {
    Reply([Notice(e, e.b, "/help/c")], Some(e.b), Some(Url3(e)))
  }

  /** The third reply: `c`, and no next page. */
  function Reply3(e: Example): Reply
  {
    Reply([Notice(e, e.c, "/help/d")], Some(e.c), None)
  }

  /** What the crawler reads from the three pages. */
  function Replies3(e: Example): Replies
  {
    Three(Root, Url2(e), Url3(e), Success(Reply1(e)), Success(Reply2(e)), Success(Reply3(e)))
  }

  lemma Replies3Lookup(e: Example)
    requires Wellformed(e)
    ensures Root in Replies3(e) && Url2(e) in Replies3(e) && Url3(e) in Replies3(e)
    ensures Replies3(e)[Root] == Success(Reply1(e))
    ensures Replies3(e)[Url2(e)] == Success(Reply2(e))
    ensures Replies3(e)[Url3(e)] == Success(Reply3(e))
  {
    ThreeAt<Result<Reply, CrawlError>>(Root, Url2(e), Url3(e), Success(Reply1(e)), Success(Reply2(e)), Success(Reply3(e)));
  }

  lemma ReadPage1(e: Example)
    requires Wellformed(e)
    ensures Read(Page1(e), e.start, e.end) == Success(Reply1(e))
  {
    ArticleReads(e, e.a, "/help/a");
    ArticleReads(e, e.b, "/help/b");
    TwoItems(Article(e, e.a, "/help/a"), e.a, Article(e, e.b, "/help/b"), e.b, e.start, e.end);
    ReadAs(Page1(e), e.start, e.end, [Notice(e, e.a, "/help/a"), Notice(e, e.b, "/help/b")], Some(e.b));
  }

  lemma ReadPage2(e: Example)
    requires Wellformed(e)
    ensures Read(Page2(e), e.start, e.end) == Success(Reply2(e))
  {
    ArticleReads(e, e.b, "/help/c");
    OneItem(Article(e, e.b, "/help/c"), e.b, e.start, e.end);
    ReadAs(Page2(e), e.start, e.end, [Notice(e, e.b, "/help/c")], Some(e.b));
  }

  lemma ReadPage3(e: Example)
    requires Wellformed(e)
    ensures Read(Page3(e), e.start, e.end) == Success(Reply3(e))
  {
    ArticleReads(e, e.c, "/help/d");
    OneItem(Article(e, e.c, "/help/d"), e.c, e.start, e.end);
    ReadAs(Page3(e), e.start, e.end, [Notice(e, e.c, "/help/d")], Some(e.c));
  }

  /** Reading a three-page source page by page. */
  lemma RepliesOfThree(src: ListingSource, start: CalendarDate, end: CalendarDate,
                       k1: string, k2: string, k3: string,
                       r1: Result<Reply, CrawlError>, r2: Result<Reply, CrawlError>, r3: Result<Reply, CrawlError>)
    requires k1 != k2 && k1 != k3 && k2 != k3
    requires forall u :: u in src <==> u in {k1, k2, k3}
    requires Read(src[k1], start, end) == r1 && Read(src[k2], start, end) == r2 && Read(src[k3], start, end) == r3
    ensures RepliesOf(src, start, end) == Three(k1, k2, k3, r1, r2, r3)
  {
    var rs := RepliesOf(src, start, end);
    var want := Three(k1, k2, k3, r1, r2, r3);
    assert rs.Keys == want.Keys;
    forall u | u in rs
      ensures rs[u] == want[u]
    {
    }
  }

  lemma RepliesOfSource(e: Example)
    requires Wellformed(e)
    ensures RepliesOf(Source(e), e.start, e.end) == Replies3(e)
  {
    var src := Source(e);
    ThreeAt(Root, Url2(e), Url3(e), Page1(e), Page2(e), Page3(e));
    ReadPage1(e);
    ReadPage2(e);
    ReadPage3(e);
    RepliesOfThree(src, e.start, e.end, Root, Url2(e), Url3(e), Success(Reply1(e)), Success(Reply2(e)), Success(Reply3(e)));
  }

  /** The state after the first page: the minimum is `b`, the next URL is page 2. */
  function AfterFirst(e: Example): CrawlState
  {
    CrawlState(Some(Url2(e)), Some(e.b), [Notice(e, e.a, "/help/a"), Notice(e, e.b, "/help/b")])
  }

  /** An iteration on a page whose reply sets or lowers the minimum, with
      the output it leaves named. */
  lemma LoweringStep(v: Variant, rs: Replies, start: CalendarDate, s: CrawlState, rep: Reply, out: seq<Record>)
    requires s.url.Some? && s.url.value in rs && rs[s.url.value] == Success(rep)
    requires Lowers(s.earliest, rep.earliest) && s.out + rep.records == out
    ensures Step(v, rs, start, s) == Success(CrawlState(NextUrl(rep.earliest, start, rep.next), rep.earliest, out))
  {
    LoweredMovesOn(v, s, rep, start);
  }

  /** An iteration of the flat loop on a page that leaves a minimum later
      than `start` as it was, with the output it leaves named. */
  lemma FlatKeepingStep(rs: Replies, start: CalendarDate, s: CrawlState, rep: Reply, out: seq<Record>)
    requires s.url.Some? && s.url.value in rs && rs[s.url.value] == Success(rep)
    requires s.earliest.Some? && Before(start, s.earliest.value) && !Lowers(s.earliest, rep.earliest)
    requires s.out + rep.records == out
    ensures Step(Flat, rs, start, s) == Success(CrawlState(rep.next, s.earliest, out))
  {
    FlatMovesOn(s, rep, start);
  }

  /** The window starts strictly before `b`, since `c` lies in it and before `b`. */
  lemma StartBeforeB(e: Example)
    requires Wellformed(e)
    ensures Before(e.start, e.b)
  {
    BeforeIsStrictTotalOrder(e.start, e.c, e.b);
  }

  /** Both loops read page 1 alike, on any replies that give page 1's: the
      minimum drops from nothing to `b`, which is after the window's start,
      so page 2 is next. */
  lemma FirstStep(v: Variant, e: Example, rs: Replies)
    requires Wellformed(e) && Root in rs && rs[Root] == Success(Reply1(e))
    ensures Step(v, rs, e.start, Initial()) == Success(AfterFirst(e))
  {
    var rep := Reply1(e);
    StartBeforeB(e);
    PrependEmpty(rep.records);
    LoweringStep(v, rs, e.start, Initial(), rep, rep.records);
    assert NextUrl(rep.earliest, e.start, rep.next) == Some(Url2(e));
  }

  /** The state of the flat loop after page 2, and after page 3. */
  function FlatAfterSecond(e: Example): CrawlState
  {
    CrawlState(Some(Url3(e)), Some(e.b), [Notice(e, e.a, "/help/a"), Notice(e, e.b, "/help/b"), Notice(e, e.b, "/help/c")])
  }

  function FlatAfterThird(e: Example): CrawlState
  {
    CrawlState(None, Some(e.c),
               [Notice(e, e.a, "/help/a"), Notice(e, e.b, "/help/b"), Notice(e, e.b, "/help/c"), Notice(e, e.c, "/help/d")])
  }

  /** Page 2 does not lower the minimum, yet the flat loop still follows its
      next link, since the minimum is after the window's start. */
  lemma FlatSecondStep(e: Example)
    requires Wellformed(e)
    ensures Step(Flat, Replies3(e), e.start, AfterFirst(e)) == Success(FlatAfterSecond(e))
  {
    var s := AfterFirst(e);
    var rep := Reply2(e);
    Replies3Lookup(e);
    StartBeforeB(e);
    AppendOne(Notice(e, e.a, "/help/a"), Notice(e, e.b, "/help/b"), Notice(e, e.b, "/help/c"));
    FlatKeepingStep(Replies3(e), e.start, s, rep, FlatAfterSecond(e).out);
  }

  /** Page 3 lowers the minimum to `c` and has no next link, so the flat loop
      stops after it. */
  lemma FlatThirdStep(e: Example)
    requires Wellformed(e)
    ensures Step(Flat, Replies3(e), e.start, FlatAfterSecond(e)) == Success(FlatAfterThird(e))
  {
    var s := FlatAfterSecond(e);
    var rep := Reply3(e);
    Replies3Lookup(e);
    AppendOneMore(Notice(e, e.a, "/help/a"), Notice(e, e.b, "/help/b"), Notice(e, e.b, "/help/c"), Notice(e, e.c, "/help/d"));
    LoweringStep(Flat, Replies3(e), e.start, s, rep, FlatAfterThird(e).out);
    assert NextUrl(rep.earliest, e.start, rep.next).None?;
  }

  /** The flat loop reads the three pages once each and ends, with every
      announcement of the window in listing order and the minimum at `c`. */
  lemma FlatCrawlEnds(e: Example)
    requires Wellformed(e)
    ensures CrawlSource(Flat, Source(e), e.start, e.end, 3) == Done(FlatAfterThird(e))
  {
    var rs := Replies3(e);
    RepliesOfSource(e);
    Replies3Lookup(e);
    FirstStep(Flat, e, rs);
    FlatSecondStep(e);
    FlatThirdStep(e);
    assert Run(Flat, rs, e.start, FlatAfterSecond(e), 1) == Run(Flat, rs, e.start, FlatAfterThird(e), 0);
    assert Run(Flat, rs, e.start, AfterFirst(e), 2) == Run(Flat, rs, e.start, FlatAfterSecond(e), 1);
  }

  /** Page 2 does not lower the minimum `b` that page 1 left behind. */
  lemma StallsOnPage2(e: Example)
    requires Wellformed(e)
    ensures Stalls(Replies3(e), AfterFirst(e))
    ensures |Replies3(e)[Url2(e)].value.records| == 1
  {
    Replies3Lookup(e);
    StallsWhen(Replies3(e), AfterFirst(e), Reply2(e));
  }

  /** A page whose minimum equals the running minimum stalls the nested loop. */
  lemma StallsWhen(rs: Replies, s: CrawlState, rep: Reply)
    requires s.url.Some? && s.url.value in rs && rs[s.url.value] == Success(rep)
    requires s.earliest.Some? && rep.earliest == s.earliest
    ensures Stalls(rs, s)
  {
  }

  lemma NestedFirstIteration(e: Example, fuel: nat)
    requires Wellformed(e) && fuel > 0
    ensures Run(Nested, Replies3(e), e.start, Initial(), fuel) == Run(Nested, Replies3(e), e.start, AfterFirst(e), fuel - 1)
  {
    Replies3Lookup(e);
    FirstStep(Nested, e, Replies3(e));
  }

  /** On these replies the nested loop is stuck on page 2 from its second
      iteration on. */
  lemma NestedRunOfReplies(e: Example, fuel: nat)
    requires Wellformed(e)
    ensures var o := Run(Nested, Replies3(e), e.start, Initial(), fuel);
      && o.OutOfFuel?
      && (fuel > 0 ==> o.state.url == Some(Url2(e)) && |o.state.out| == fuel + 1)
  {
    if fuel > 0 {
      var s1 := AfterFirst(e);
      assert s1.url == Some(Url2(e)) && |s1.out| == 2;
      StallsOnPage2(e);
      NestedFirstIteration(e, fuel);
      StallAfter(Replies3(e), e.start, Initial(), s1, fuel);
    }
  }

  /** A run whose first iteration leads to a stalling page with one record
      gains one record per later iteration and never ends. */
  lemma StallAfter(rs: Replies, start: CalendarDate, s0: CrawlState, s1: CrawlState, fuel: nat)
    requires fuel > 0
    requires Run(Nested, rs, start, s0, fuel) == Run(Nested, rs, start, s1, fuel - 1)
    requires Stalls(rs, s1) && |rs[s1.url.value].value.records| == 1
    ensures var o := Run(Nested, rs, start, s0, fuel);
      o.OutOfFuel? && o.state.url == s1.url && |o.state.out| == |s1.out| + fuel - 1
  {
    NestedRunNeverEnds(rs, start, s1, fuel - 1);
  }

  /** The nested loop never ends on the same listing: however much fuel it is
      given, it is still on page 2, having appended page 2's one record once
      per iteration after the first. */
  lemma NestedCrawlNeverEnds(e: Example, fuel: nat)
    requires Wellformed(e)
    ensures var o := CrawlSource(Nested, Source(e), e.start, e.end, fuel);
      && o.OutOfFuel?
      && (fuel > 0 ==> o.state.url == Some(Url2(e)) && |o.state.out| == fuel + 1)
  {
    RepliesOfSource(e);
    NestedRunOfReplies(e, fuel);
  }

  /** 28, 15 and 5 October in the window from the 1st to the 30th, the next
      pages at `/page/2` and `/page/3` of the announcements category. */
  const October: Example := Example(Date(2020, 10, 1), Date(2020, 10, 30),
                                    Date(2020, 10, 28), Date(2020, 10, 15), Date(2020, 10, 5),
                                    "/help/category/announcements/page/2",
                                    "/help/category/announcements/page/3",
                                    "Listing notice")

  lemma OctoberIsWellformed()
    ensures Wellformed(October)
  {
    var u2 := Url2(October);
    var u3 := Url3(October);
    assert u2[|u2| - 1] == '2';
    assert u3[|u3| - 1] == '3';
    assert |Root| < |u2|;
  }

  /** On the October listing the flat loop ends after three pages and the
      nested one never ends. */
  lemma OctoberListing(fuel: nat)
    ensures CrawlSource(Flat, Source(October), October.start, October.end, 3).Done?
    ensures CrawlSource(Nested, Source(October), October.start, October.end, fuel).OutOfFuel?
  {
    OctoberIsWellformed();
    FlatCrawlEnds(October);
    NestedCrawlNeverEnds(October, fuel);
  }

  /** `main` as written, started on the October listing with its window,
      never returns, whatever the fuel; with the flat decision it saves the
      file after three pages. */
  lemma OctoberMain(folder: string, fs: FileSystem, fuel: nat)
    ensures Main(Nested, FormatIso(October.start), FormatIso(October.end), folder, Source(October), fs, fuel).None?
    ensures var r := Main(Flat, FormatIso(October.start), FormatIso(October.end), folder, Source(October), fs, 3);
      r.Some? && r.value.0 == SavedTo(OutputPath(folder, October.start, October.end))
  {
    OctoberListing(fuel);
    CheckArgumentsOfFormatted(October.start, October.end);
    assert NotAfter(October.start, October.end);
  }

  // ---------------------------------------------------------------------------
  // A listing whose second page reaches back before the window

  /** Two keys and their values. */
  function Two<T>(k1: string, k2: string, v1: T, v2: T): map<string, T>
  {
    KeyedTwo({k1, k2}, k1, v1, v2)
  }

  function KeyedTwo<T>(keys: set<string>, k1: string, v1: T, v2: T): map<string, T>
  {
    map u | u in keys :: if u == k1 then v1 else v2
  }

  lemma TwoAt<T>(k1: string, k2: string, v1: T, v2: T)
    requires k1 != k2
    ensures forall u :: u in Two(k1, k2, v1, v2) <==> u in {k1, k2}
    ensures Two(k1, k2, v1, v2)[k1] == v1 && Two(k1, k2, v1, v2)[k2] == v2
  {
  }

  /** Page 2 of the shorter listing lists `c` and then `d`, and links page 3,
      which the listing does not have. */
  function ReachingPage2(e: Example, d: CalendarDate): Page
  {
    Page([Article(e, e.c, "/help/c"), Article(e, d, "/help/d")], NextWithHref(e.page3))
  }

  /** Page 1 as before, then the reaching page 2. */
  function ReachingSource(e: Example, d: CalendarDate): ListingSource
  {
    Two(Root, Url2(e), Page1(e), ReachingPage2(e, d))
  }

  /** Its reply: the record of `c` only, the minimum `d`, and page 3 next. */
  function ReachingReply(e: Example, d: CalendarDate): Reply
  {
    Reply([Notice(e, e.c, "/help/c")], Some(d), Some(Url3(e)))
  }

  function ReachingReplies(e: Example, d: CalendarDate): Replies
  {
    Two(Root, Url2(e), Success(Reply1(e)), Success(ReachingReply(e, d)))
  }

  /** An announcement dated outside the window is read for its date only. */
  lemma ArticleDated(e: Example, d: CalendarDate, path: string)
    ensures ItemDate(Article(e, d, path)) == Success(d)
    ensures ItemReadable(Article(e, d, path), e.start, e.end)
  {
    ParseLabelOfFormatLabel(d);
  }

  /** An item outside the window, on its own: readable, no record, its date the minimum. */
  lemma OneItemOutside(it: Item, d: CalendarDate, start: CalendarDate, end: CalendarDate)
    requires ItemDate(it) == Success(d) && !InWindow(d, start, end)
    ensures PageReadable([it], start, end)
    ensures Harvest([it], start, end) == []
    ensures PageMinimum([it], start, end) == Some(d)
  {
    assert ItemReadable([it][0], start, end);
    assert [it][1..] == [];
  }

  /** An in-window item followed by an earlier one outside the window. */
  lemma TwoItemsLastOutside(x: Item, dx: CalendarDate, y: Item, dy: CalendarDate, start: CalendarDate, end: CalendarDate)
    requires ItemDate(x) == Success(dx) && InWindow(dx, start, end)
    requires x.title.Some? && x.href.Some? && x.detail.Some?
    requires ItemDate(y) == Success(dy) && !InWindow(dy, start, end)
    requires Before(dy, dx)
    ensures PageReadable([x, y], start, end)
    ensures Harvest([x, y], start, end) == [ItemRecord(x, dx).value.value]
    ensures PageMinimum([x, y], start, end) == Some(dy)
  {
    var xs := [x, y];
    OneItemOutside(y, dy, start, end);
    assert xs[0] == x && xs[1..] == [y];
    assert ItemReadable(x, start, end);
    ReadableCons(xs, start, end);
    HarvestCons(xs, start, end);
    var rx := ItemRecord(x, dx).value.value;
    assert OptionToSeq(ItemRecord(x, dx).value) == [rx];
    AppendEmpty([rx]);
  }

  lemma ReadReachingPage2(e: Example, d: CalendarDate)
    requires Wellformed(e) && Before(d, e.start)
    ensures Read(ReachingPage2(e, d), e.start, e.end) == Success(ReachingReply(e, d))
  {
    var x, y := Article(e, e.c, "/help/c"), Article(e, d, "/help/d");
    ArticleReads(e, e.c, "/help/c");
    ArticleDated(e, d, "/help/d");
    BeforeIsStrictTotalOrder(d, e.start, e.c);
    ReadTwoLastOutside(ReachingPage2(e, d), x, e.c, y, d, e.start, e.end);
  }

  /** A page of an in-window item followed by an older one outside the window. */
  lemma ReadTwoLastOutside(p: Page, x: Item, dx: CalendarDate, y: Item, dy: CalendarDate, start: CalendarDate, end: CalendarDate)
    requires p.items == [x, y]
    requires ItemDate(x) == Success(dx) && InWindow(dx, start, end)
    requires x.title.Some? && x.href.Some? && x.detail.Some?
    requires ItemDate(y) == Success(dy) && !InWindow(dy, start, end)
    requires Before(dy, dx)
    ensures Read(p, start, end) == Success(Reply([ItemRecord(x, dx).value.value], Some(dy), NextPageUrl(p)))
  {
    TwoItemsLastOutside(x, dx, y, dy, start, end);
    ReadAs(p, start, end, [ItemRecord(x, dx).value.value], Some(dy));
  }

  /** Reading a two-page source page by page. */
  lemma RepliesOfTwo(src: ListingSource, start: CalendarDate, end: CalendarDate, k1: string, k2: string,
                     r1: Result<Reply, CrawlError>, r2: Result<Reply, CrawlError>)
    requires k1 != k2
    requires forall u :: u in src <==> u in {k1, k2}
    requires Read(src[k1], start, end) == r1 && Read(src[k2], start, end) == r2
    ensures RepliesOf(src, start, end) == Two(k1, k2, r1, r2)
  {
    var rs := RepliesOf(src, start, end);
    var want := Two(k1, k2, r1, r2);
    assert rs.Keys == want.Keys;
    forall u | u in rs
      ensures rs[u] == want[u]
    {
    }
  }

  lemma RepliesOfReaching(e: Example, d: CalendarDate)
    requires Wellformed(e) && Before(d, e.start)
    ensures RepliesOf(ReachingSource(e, d), e.start, e.end) == ReachingReplies(e, d)
  {
    TwoAt(Root, Url2(e), Page1(e), ReachingPage2(e, d));
    ReadPage1(e);
    ReadReachingPage2(e, d);
    RepliesOfTwo(ReachingSource(e, d), e.start, e.end, Root, Url2(e), Success(Reply1(e)), Success(ReachingReply(e, d)));
  }

  /** The state after the reaching page 2: no URL, the minimum `d`, and the
      records of `a`, `b` and `c`. */
  function AfterReaching(e: Example, d: CalendarDate): CrawlState
  {
    CrawlState(None, Some(d), [Notice(e, e.a, "/help/a"), Notice(e, e.b, "/help/b"), Notice(e, e.c, "/help/c")])
  }

  /** Page 2 lowers the minimum to `d`, which is before the window's start,
      so either loop stops without following page 2's next link. */
  lemma ReachingSecondStep(v: Variant, e: Example, d: CalendarDate)
    requires Wellformed(e) && Before(d, e.start)
    ensures Step(v, ReachingReplies(e, d), e.start, AfterFirst(e)) == Success(AfterReaching(e, d))
  {
    var rs := ReachingReplies(e, d);
    var rep := ReachingReply(e, d);
    TwoAt<Result<Reply, CrawlError>>(Root, Url2(e), Success(Reply1(e)), Success(rep));
    StartBeforeB(e);
    BeforeIsStrictTotalOrder(d, e.start, e.b);
    BeforeIsStrictTotalOrder(e.start, d, e.start);
    AppendOne(Notice(e, e.a, "/help/a"), Notice(e, e.b, "/help/b"), Notice(e, e.c, "/help/c"));
    LoweringStep(v, rs, e.start, AfterFirst(e), rep, AfterReaching(e, d).out);
    assert NextUrl(rep.earliest, e.start, rep.next).None?;
  }

  /** Both loops read the two pages and stop: the output is exactly the
      records of the window's three announcements, in listing order, and the
      announcement before the window adds none. */
  lemma ReachingCrawlEnds(v: Variant, e: Example, d: CalendarDate)
    requires Wellformed(e) && Before(d, e.start)
    ensures CrawlSource(v, ReachingSource(e, d), e.start, e.end, 2) == Done(AfterReaching(e, d))
  {
    var rs := ReachingReplies(e, d);
    RepliesOfReaching(e, d);
    TwoAt<Result<Reply, CrawlError>>(Root, Url2(e), Success(Reply1(e)), Success(ReachingReply(e, d)));
    FirstStep(v, e, rs);
    ReachingSecondStep(v, e, d);
    assert Run(v, rs, e.start, AfterFirst(e), 1) == Run(v, rs, e.start, AfterReaching(e, d), 0);
  }

  /** On the October window: 28 and 15 October on page 1, 5 October and
      20 September on page 2. Both loops end after two pages with the
      records of 28, 15 and 5 October. */
  lemma OctoberReaching(v: Variant)
    ensures var o := CrawlSource(v, ReachingSource(October, Date(2020, 9, 20)), October.start, October.end, 2);
      && o == Done(AfterReaching(October, Date(2020, 9, 20)))
      && o.state.out == [Notice(October, Date(2020, 10, 28), "/help/a"),
                         Notice(October, Date(2020, 10, 15), "/help/b"),
                         Notice(October, Date(2020, 10, 5), "/help/c")]
  {
    OctoberIsWellformed();
    ReachingCrawlEnds(v, October, Date(2020, 9, 20));
  }
}

=== FILE: text.dfy ===
/** String helpers the parsers and the scraper share: decimal digits, Python's
    `str.strip()`, `str.replace(old, "")`, and splitting at a separator. */
module Text {
  import opened Wrappers

  /** An ASCII decimal digit, the only kind of digit the model's parsers accept. */
  predicate IsDigit(c: char)
  {
    '0' <= c <= '9'
  }

  predicate AllDigits(s: string)
  {
    forall i :: 0 <= i < |s| ==> IsDigit(s[i])
  }

  function DigitValue(c: char): (v: nat)
    requires IsDigit(c)
    ensures v < 10
  {
    c as int - '0' as int
  }

  function DigitChar(v: nat): (c: char)
    requires v < 10
    ensures IsDigit(c) && DigitValue(c) == v
  {
    (v + '0' as int) as char
  }

  /** Value of a string of decimal digits, most significant digit first. */
  function DigitsValue(s: string): nat
    requires AllDigits(s)
    decreases |s|
  {
    if |s| == 0 then 0 else DigitsValue(s[..|s| - 1]) * 10 + DigitValue(s[|s| - 1])
  }

  /** Two decimal digits with a leading zero, as `%m` and `%d` print. */
  function Pad2(v: nat): (s: string)
    requires v < 100
    ensures |s| == 2 && AllDigits(s)
    ensures DigitsValue(s) == v
  {
    var s := [DigitChar(v / 10), DigitChar(v % 10)];
    DigitsValueOfTwo(s);
    s
  }

  /** Four decimal digits with leading zeros, as `%Y` prints. */
  function Pad4(v: nat): (s: string)
    requires v < 10000
    ensures |s| == 4 && AllDigits(s)
    ensures DigitsValue(s) == v
  {
    var hi := Pad2(v / 100);
    var lo := Pad2(v % 100);
    DigitsValueOfAppend2(hi, lo);
    hi + lo
  }

  lemma DigitsValueOfTwo(s: string)
    requires |s| == 2 && AllDigits(s)
    ensures DigitsValue(s) == DigitValue(s[0]) * 10 + DigitValue(s[1])
  {
    assert s[..1][..0] == [];
    assert DigitsValue(s[..1]) == DigitValue(s[0]);
  }

  lemma DigitsValueOfAppend2(a: string, b: string)
    requires AllDigits(a) && AllDigits(b) && |b| == 2
    ensures AllDigits(a + b)
    ensures DigitsValue(a + b) == DigitsValue(a) * 100 + DigitsValue(b)
  {
    var ab := a + b;
    var a1 := a + [b[0]];
    assert ab[..|ab| - 1] == a1;
    assert a1[..|a|] == a;
    assert DigitsValue(a1) == DigitsValue(a) * 10 + DigitValue(b[0]);
    assert DigitsValue(ab) == DigitsValue(a1) * 10 + DigitValue(b[1]);
    DigitsValueOfTwo(b);
  }

  /** The characters of code point below 256 that Python's `str.isspace()` accepts. */
  predicate IsSpace(c: char)
  {
    var n := c as int;
    n == 32 || 9 <= n <= 13 || 28 <= n <= 31 || n == 0x85 || n == 0xA0
  }

  /** A text made only of white space, the empty text included. */
  predicate AllSpace(w: string)
  {
    forall i :: 0 <= i < |w| ==> IsSpace(w[i])
  }

  /** `s.lstrip()`: the longest suffix of `s` that does not start with white space. */
  function StripStart(s: string): (r: string)
    ensures |r| <= |s| && r == s[|s| - |r|..]
    ensures |r| == 0 || !IsSpace(r[0])
    ensures forall i :: 0 <= i < |s| - |r| ==> IsSpace(s[i])
    decreases |s|
  {
    if |s| > 0 && IsSpace(s[0]) then StripStart(s[1..]) else s
  }

  /** `s.rstrip()`: the longest prefix of `s` that does not end with white space. */
  function StripEnd(s: string): (r: string)
    ensures |r| <= |s| && r == s[..|r|]
    ensures |r| == 0 || !IsSpace(r[|r| - 1])
    ensures forall i :: |r| <= i < |s| ==> IsSpace(s[i])
    decreases |s|
  {
    if |s| > 0 && IsSpace(s[|s| - 1]) then StripEnd(s[..|s| - 1]) else s
  }

  /** `s.strip()`: `s` without leading and trailing white space. */
  function Strip(s: string): (r: string)
    ensures |r| <= |s|
    ensures |r| == 0 || (!IsSpace(r[0]) && !IsSpace(r[|r| - 1]))
    ensures |s| > 0 && !IsSpace(s[0]) && !IsSpace(s[|s| - 1]) ==> r == s
  {
    StripEnd(StripStart(s))
  }

  /** White space added around a text is removed by `strip` together with
      the text's own: the result is that of the bare text. */
  lemma StripIgnoresOuterSpace(w1: string, t: string, w2: string)
    requires AllSpace(w1) && AllSpace(w2)
    ensures Strip(w1 + t + w2) == Strip(t)
  {
    assert w1 + t + w2 == w1 + (t + w2);
    StripStartSkipsSpace(w1, t + w2);
    StripStartAppend(t, w2);
    if |StripStart(t)| > 0 {
      StripEndSkipsSpace(StripStart(t), w2);
    } else {
      StripStartSkipsSpace(w2, []);
      assert w2 + [] == w2;
    }
  }

  lemma {:induction false} StripStartSkipsSpace(w: string, t: string)
    requires AllSpace(w)
    ensures StripStart(w + t) == StripStart(t)
    decreases |w|
  {
    if |w| == 0 {
      assert w + t == t;
    } else {
      assert (w + t)[1..] == w[1..] + t;
      StripStartSkipsSpace(w[1..], t);
    }
  }

  lemma {:induction false} StripEndSkipsSpace(t: string, w: string)
    requires AllSpace(w)
    ensures StripEnd(t + w) == StripEnd(t)
    decreases |w|
  {
    var tw := t + w;
    if |w| == 0 {
      assert tw == t;
    } else {
      assert tw[|tw| - 1] == w[|w| - 1];
      assert tw[..|tw| - 1] == t + w[..|w| - 1];
      StripEndSkipsSpace(t, w[..|w| - 1]);
    }
  }

  /** `lstrip` of a concatenation: the tail survives once the head has
      anything left after stripping. */
  lemma {:induction false} StripStartAppend(t: string, w: string)
    ensures StripStart(t + w) == if |StripStart(t)| > 0 then StripStart(t) + w else StripStart(w)
    decreases |t|
  {
    if |t| == 0 {
      assert t + w == w;
    } else if IsSpace(t[0]) {
      assert (t + w)[1..] == t[1..] + w;
      StripStartAppend(t[1..], w);
    }
  }

  /** `strip` removes exactly the outer white space: what it returns is a
      slice of `s` with only white space outside it, and it neither starts
      nor ends with white space. */
  lemma StripRemovesOuterSpace(s: string)
    ensures InnerSlice(s, Strip(s))
    ensures |Strip(s)| == 0 || (!IsSpace(Strip(s)[0]) && !IsSpace(Strip(s)[|Strip(s)| - 1]))
  {
    StripIsSlice(s);
  }

  /** `r` is a slice of `s` with only white space outside it. */
  ghost predicate InnerSlice(s: string, r: string)
  {
    exists i, j :: 0 <= i <= j <= |s| && r == s[i..j] && OnlySpaceOutside(s, i, j)
  }

  /** Every character of `s` before `i` and from `j` on is white space. */
  predicate OnlySpaceOutside(s: string, i: int, j: int)
    requires 0 <= i <= j <= |s|
  {
    (forall k :: 0 <= k < i ==> IsSpace(s[k])) && (forall k :: j <= k < |s| ==> IsSpace(s[k]))
  }

  lemma StripIsSlice(s: string)
    ensures var r := StripEnd(StripStart(s));
      && |r| <= |s|
      && InnerSlice(s, r)
      && (|r| == 0 || (!IsSpace(r[0]) && !IsSpace(r[|r| - 1])))
      && (|s| > 0 && !IsSpace(s[0]) && !IsSpace(s[|s| - 1]) ==> r == s)
  {
    var t := StripStart(s);
    var r := StripEnd(t);
    SliceBetweenSpace(s, t, r);
    if |r| > 0 {
      assert r[0] == t[0];
    }
  }

  /** A prefix `r` of a suffix `t` of `s`, with only white space cut off on
      either side, is a slice of `s` with only white space outside it. */
  lemma SliceBetweenSpace(s: string, t: string, r: string)
    requires |t| <= |s| && t == s[|s| - |t|..] && forall k :: 0 <= k < |s| - |t| ==> IsSpace(s[k])
    requires |r| <= |t| && r == t[..|r|] && forall k :: |r| <= k < |t| ==> IsSpace(t[k])
    ensures InnerSlice(s, r)
  {
    var i := |s| - |t|;
    var j := i + |r|;
    assert r == s[i..j];
    forall k | j <= k < |s| ensures IsSpace(s[k]) {
      assert s[k] == t[k - i];
    }
    assert OnlySpaceOutside(s, i, j);
  }

  predicate StartsWith(s: string, p: string)
  {
    |p| <= |s| && s[..|p|] == p
  }

  predicate EndsWith(s: string, p: string)
  {
    |p| <= |s| && s[|s| - |p|..] == p
  }

  /** `p in s` for strings: `p` occurs somewhere inside `s`. */
  predicate Occurs(s: string, p: string)
    decreases |s|
  {
    StartsWith(s, p) || (|s| > 0 && Occurs(s[1..], p))
  }

  lemma {:induction false} OccursInside(a: string, p: string, b: string)
    ensures Occurs(a + p + b, p)
    decreases |a|
  {
    if |a| == 0 {
      assert a + p + b == p + b;
      assert (p + b)[..|p|] == p;
    } else {
      assert (a + p + b)[1..] == a[1..] + p + b;
      OccursInside(a[1..], p, b);
    }
  }

  lemma {:induction false} NotOccursWithoutFirstChar(s: string, p: string)
    requires |p| > 0 && p[0] !in s
    ensures !Occurs(s, p)
    decreases |s|
  {
    if |s| > 0 {
      assert s[0] in s;
      assert forall c :: c in s[1..] ==> c in s;
      NotOccursWithoutFirstChar(s[1..], p);
    }
  }

  /** `s.replace(p, q)`: every occurrence of `p`, scanning left to right and
      without overlap, is replaced by `q`. */
  function ReplaceAll(s: string, p: string, q: string): (r: string)
    requires |p| > 0
    ensures !Occurs(s, p) ==> r == s
    decreases |s|
  {
    if StartsWith(s, p) then q + ReplaceAll(s[|p|..], p, q)
    else if |s| == 0 then s
    else [s[0]] + ReplaceAll(s[1..], p, q)
  }

  /** Splits `s` at the first `c`: `s == a + [c] + b` where `a` holds no `c`. */
  function SplitAt(s: string, c: char): (r: Option<(string, string)>)
    ensures r.None? <==> c !in s
    ensures r.Some? ==> s == r.value.0 + [c] + r.value.1 && c !in r.value.0
    decreases |s|
  {
    if |s| == 0 then None
    else if s[0] == c then Some(([], s[1..]))
    else match SplitAt(s[1..], c)
      case None => None
      case Some((a, b)) => Some(([s[0]] + a, b))
  }

  /** The first separator is where `SplitAt` cuts, whatever follows it. */
  lemma {:induction false} SplitAtFirst(a: string, c: char, b: string)
    requires c !in a
    ensures SplitAt(a + [c] + b, c) == Some((a, b))
    decreases |a|
  {
    var s := a + [c] + b;
    if |a| == 0 {
      assert s == [c] + b;
      assert s[1..] == b;
    } else {
      assert a[0] in a;
      assert s[1..] == a[1..] + [c] + b;
      assert forall x :: x in a[1..] ==> x in a;
      SplitAtFirst(a[1..], c, b);
      assert [s[0]] + a[1..] == a;
    }
  }

  /** ASCII lower case, the case folding that regular expressions compiled
      with IGNORECASE apply to English month names. */
  function LowerChar(c: char): char
  {
    if 'A' <= c <= 'Z' then (c as int + 32) as char else c
  }

  function Lower(s: string): (r: string)
    ensures |r| == |s| && forall i :: 0 <= i < |s| ==> r[i] == LowerChar(s[i])
  {
    seq(|s|, i requires 0 <= i < |s| => LowerChar(s[i]))
  }
}

=== FILE: wrappers.dfy ===
/** Option and Result, the failure-carrying datatypes of the model.
    `Result` stands for a Python call that either returns or raises. */
module Wrappers {

  datatype Option<+T> = None | Some(value: T)

  datatype Result<+R, +E> = Success(value: R) | Failure(error: E) {

    predicate IsFailure()
    {
      Failure?
    }

    function PropagateFailure<U>(): Result<U, E>
      requires Failure?
    {
      Failure(error)
    }

    function Extract(): R
      requires Success?
    {
      value
    }
  }
}
